=== FILE: README.md ===
# ragnode chat core in Dafny

A model of the sequential decision logic of ragnode's chat backend. ragnode is
a demo web application: persona-branded chat bots answered by a hosted model
API, with each exchange persisted to a database. The model covers:

- `BaseChat.format_messages`: turning the UI's conversation history and the
  new message into the request payload of the model API.
- The model-identifier rule of `BaseChat.__init__`: region prefix, dot and
  base model name.
- One chat turn, `BaseChat.get_response` together with `save_message`. It
  covers the empty-input guard, the user save, the polling loop that
  accumulates streamed chunks, and the two error exits. It also covers the
  finalisation after the loop, the single non-streaming fallback, and how the
  fallback reply's blocks become text.
- The bot configuration resolver of `ChatInterface`: `_load_config`,
  `_append_knowledge_base`, the constructor that combines them, and the
  module-level `get_available_bots` scan.

`app/chat.py` holds a copy of `BaseChat` without its comments. The rows below
cite whichever of the two copies shows the modelled lines best.

Everything the turn cannot compute is an input. The model keeps the order of
everything the turn does as a list of events. An event is a record handed to
`save_message`, a request sent to the model API, or a string yielded to the UI.

| module | file | what it holds |
|---|---|---|
| `Wrappers` | `wrappers.dfy` | `Option` and `Result` |
| `Values` | `values.dfy` | the Python values the history and the YAML files carry, and their truthiness |
| `Text` | `text.dfy` | `startswith`, `isspace`, `strip` and left-to-right concatenation |
| `Messages` | `messages.dfy` | `format_messages`, and a reference description of which entries it keeps and which raise |
| `ModelId` | `model_id.dfy` | the model-identifier rule |
| `Stream` | `stream.dfy` | the consumer's polling loop over a trace of observations |
| `Fallback` | `fallback.dfy` | the text extraction of the non-streaming reply |
| `Turn` | `turn.dfy` | `get_response`, `save_message`, and the turn's saves, calls and outputs |
| `Bots` | `bots.dfy` | the configuration and knowledge resolution and the bot scan |

The modelling choices:

- **The producer thread is replaced by a trace.** The thread, the
  `asyncio.Queue` and the 0.1-second `wait_for` become a sequence of what the
  consumer observes at each step. An observation is one of:
  - the error flag at the top of an iteration;
  - a chunk;
  - the `None` sentinel;
  - a poll timeout, together with the done flag at that moment.

  A trace that runs out leaves the generator suspended.
- **Other oracles.** The value of the error flag once the loop has been left is
  a separate input. The producer may fail after the consumer's last flag check.
  The non-streaming reply, or its error, is also an input. A failure while
  building the client or starting the producer thread is one more input. It
  reaches the outer `except` of `get_response`.
- **Files and YAML.** The file system and YAML loading are one function: for a
  path it gives missing, failing to load, or the parsed value. `yaml.dump` is
  an uninterpreted function.

Behaviour of the code that the model keeps, including where it is easy to
misread:

- **Malformed history entries raise.** The code indexes `h["role"]` of every
  dict and `h["content"]` of a user or assistant dict. A dict without "role",
  or a user or assistant dict without "content", raises `KeyError` rather than
  being skipped; a dict with any other role is skipped. The turn then reports `Error: 'role'` (or `'content'`) before the
  user message is saved.
- **A turn does not always persist one user record and one assistant
  record.**
  - A history the formatter rejects saves only the error.
  - A generator left suspended saves only the user message.
  - A loop that took the sentinel with nothing streamed saves no assistant
    record when the error flag was set after the loop's last flag check.
- **A streaming error follows what was already streamed.** The cumulative
  strings yielded before the flag was seen stay yielded, and the
  `Streaming error: ` message comes after them.
- **An empty error message is falsy.** An exception whose message is empty
  leaves the flag falsy. The loop then carries on, and when nothing was
  streamed the fallback still runs.
- **The model identifier can start with a dot.** With the empty default
  prefix the identifier is `"." + base`, unless `base` already starts with a
  dot.

## Model

| member | source | states |
|---|---|---|
| Messages.FormatMessages | app/chat.py:47-59 | Formatting succeeds exactly when no history entry is malformed; on success the new message is the last element, as a user message. |
| Messages.FormatHistory | app/chat.py:50-56 | The `for h in history` loop. It has no contract of its own. `Messages.FormatHistoryKeepsInOrder` and `Messages.FormatHistoryFailsAtFirstMalformed` state its properties. |
| Messages.FormatEntryCases | app/chat.py:52-56 | One entry: a dict without "role", or with a user/assistant role but no "content", raises the KeyError of the missing key; a user/assistant dict becomes its message with role and content unchanged; every other entry is skipped. |
| Messages.FormatHistoryKeepsInOrder | app/chat.py:50-56 | On a well-formed history the loop's output is, in order, the messages of exactly the kept entries: their positions are strictly increasing, each is a user/assistant dict, and none is missed. |
| Messages.FormatKeepsExactlyTheConversation | app/chat.py:47-59 | The request holds the kept entries in their original order with role and content unchanged, then the new user message; its length is the kept count plus one. |
| Messages.FormatHistoryFailsAtFirstMalformed | app/chat.py:50-56 | The history loop fails if and only if some entry is malformed, and then with the KeyError of the first malformed entry (every earlier entry is well formed). |
| Messages.FormatFailsAtFirstMalformed | app/chat.py:47-59 | Malformed dicts are not skipped: formatting fails if and only if some entry is malformed, and the error is the missing key of the first one. |
| Messages.UiRequestRepeatsUserMessage | app/chat.py:291-298 | The UI passes a history whose last entry already is the typed message, so the request ends with that user message twice. |
| ModelId.ComposeModelId | app/chat.py:36-40 | The identifier always starts with the prefix and a dot and ends with the base; it equals the base exactly when the base already starts with prefix and dot, and otherwise it is exactly one character longer than prefix and base together, so it is the prefix, the dot and the base. |
| ModelId.ComposeIdempotent | app/chat.py:37-40 | Applying the rule to an identifier it produced changes nothing. |
| ModelId.EmptyPrefixAddsLeadingDot | app/chat.py:33-40 | With the empty prefix the identifier is "." + base, unless the base already starts with a dot, in which case it is the base. |
| ModelId.DefaultModelIdIsDotted | app/chat.py:33-34 | With neither variable set, the identifier is the default base model behind a lone dot. |
| Text.Strip | app/backend/chat/base_chat.py:77 | `strip()` leaves no whitespace at either end, and is empty exactly when every character is whitespace. |
| Text.StripEmptyIffAllSpace | app/backend/chat/base_chat.py:77 | Trimming both ends gives the empty string if and only if the message is whitespace only. |
| Stream.ConsumeLoop | app/backend/chat/base_chat.py:147-174 | The loop consumes at most the whole trace; it is suspended only when the trace is exhausted, consumes at least one observation otherwise, and exits on the flag only with a non-empty message. |
| Stream.LoopStopsAtFirstExit | app/backend/chat/base_chat.py:147-174 | No observation before the last consumed one exits the loop; a break follows the sentinel or a timeout with the done flag set; a flag exit follows the flag holding that non-empty message. |
| Stream.YieldsAreCumulative | app/backend/chat/base_chat.py:163-167 | The k-th yielded string is the start text followed by the first k+1 dequeued chunks, and the final response is all dequeued chunks. |
| Stream.YieldsGrow | app/backend/chat/base_chat.py:124-167 | Each yield starts with the previous one, the last yield is the final response, and with the producer's non-empty chunks every yield is strictly longer than the one before. |
| Stream.PrefixOfGrowth | app/backend/chat/base_chat.py:163-167 | Every yield and the final response start with the text accumulated before the loop. |
| Stream.TimeoutExitDoesNotDrain | app/backend/chat/base_chat.py:169-172 | A timeout with the done flag set breaks out even with a chunk still queued behind it, and that chunk is never yielded. |
| Stream.TwoChunksExample | app/backend/chat/base_chat.py:163-167 | Chunks "He" and "llo" followed by the sentinel yield "He" then "Hello" and leave "Hello" as the response. |
| Fallback.ExtractContent | app/backend/chat/base_chat.py:195-205 | The `+=` loop over the reply's blocks computes the reference text: no content gives "", a non-list content is taken as it is, a list gives the in-order join of its blocks' texts. |
| Fallback.BlocksTextAppend | app/backend/chat/base_chat.py:197-202 | The extracted text of two block lists put together is the text of the first followed by the text of the second. |
| Fallback.SkipsTextlessBlocks | app/backend/chat/base_chat.py:198-202 | A block with neither a `text` attribute nor a "text" key can be removed without changing the extracted text. |
| Turn.GetResponse | app/backend/chat/base_chat.py:66-226 | The whole generator: guard, formatter, user save, then `Turn.Respond`. It has no contract of its own. `Turn.BlankInputOnlyPrompts`, `Turn.FormatErrorReportsBeforeSaving`, `Turn.UserSavedOnceFirst`, `Turn.RecordsPerTurn`, `Turn.ModelCallsPerTurn`, `Turn.StreamingErrorEndsTurn` and `Turn.SavedResponseIsLastOutput` state its properties. |
| Turn.Respond | app/backend/chat/base_chat.py:85-226 | The generator after the user save: the client, the streaming request, the polling loop and what follows it, and the outer `except`. It has no contract of its own. `Turn.RespondSaveCount` and `Turn.RespondLastOutput` state its properties; the turn lemmas above lift them to `get_response`. |
| Turn.Finalise | app/backend/chat/base_chat.py:176-220 | What follows a `break` out of the loop. It has no contract of its own. `Turn.ModelCallsPerTurn`, `Turn.RecordsPerTurn` and `Turn.SavedResponseIsLastOutput` state its save, fallback and output behaviour. |
| Turn.SystemParam | app/backend/chat/base_chat.py:109 | The `system=` argument: the prompt when it is truthy, else `None`. It has no contract of its own. `Turn.ModelCallsPerTurn` states the requests that carry it. |
| Turn.BlankInputOnlyPrompts | app/backend/chat/base_chat.py:77-79 | An empty or whitespace-only message yields exactly "Please enter a message." and nothing else happens; any other message saves at least one record. |
| Turn.FormatErrorReportsBeforeSaving | app/chat.py:86-88 | An unreadable history ends the turn before the user message is saved or the model called: one record and one output, both "Error: " and the quoted key missing from the first malformed entry. |
| Turn.UserSavedOnceFirst | app/backend/chat/base_chat.py:82-83 | Past the guard and the formatter, the first event is the save of the user message, which is saved exactly once; every later record is an assistant record. |
| Turn.RecordsPerTurn | app/backend/chat/base_chat.py:176-181 | The number of records saved: none for blank input, one for a formatter error, one when the generator is still suspended or the loop ended silently, two otherwise. |
| Turn.ModelCallsPerTurn | app/backend/chat/base_chat.py:180-194 | No model call before the formatter succeeds. After it: none when the client fails; else one streaming request with the model id, the system parameter and the formatted messages; plus exactly one non-streaming call with the same arguments if and only if the loop broke with nothing streamed and no error flag. |
| Turn.StreamingErrorEndsTurn | app/backend/chat/base_chat.py:148-153 | An error flag seen at the loop top ends the turn: earlier yields stay, then exactly one "Streaming error: " record is saved and yielded, and no fallback call is made. |
| Turn.SavedResponseIsLastOutput | app/backend/chat/base_chat.py:176-220 | Whenever the turn's last record is an assistant record, its content is the last string yielded to the UI. |
| Turn.SaveMessage | app/backend/chat/base_chat.py:47-54 | One `save_message`: the record is appended, or the exception is swallowed and the store is left as it was. It has no contract of its own. `Turn.PersistAppendsOnly` states its effect over a turn's saves. |
| Turn.Persist | app/backend/chat/base_chat.py:47-54 | The turn's saves applied in order. It has no contract of its own. `Turn.PersistAppendsOnly` and `Turn.CompletedTurnAddsTwoRows` state its properties. |
| Turn.PersistAppendsOnly | app/backend/chat/base_chat.py:47-54 | Whatever saves fail, earlier rows are kept and the store gains, in order, exactly the records whose saves did not raise: a failed save loses only its own record. With no failures the rows added are exactly the records saved. |
| Turn.CompletedTurnAddsTwoRows | app/backend/chat/base_chat.py:176-178 | A completed turn on a readable history that did not end silently, with no save failing, adds exactly the user row and then one assistant row. |
| Turn.TwoChunkTurn | app/backend/chat/base_chat.py:163-178 | Chunks "He" and "llo": the UI sees "He" then "Hello", "Hello" is saved after the user message, and there is a single model call. |
| Turn.EmptyStreamFallsBack | app/backend/chat/base_chat.py:180-216 | A stream with no chunks and no error makes exactly one extra, non-streaming call; its text is saved and is the only output. |
| Turn.LateErrorOnEmptyStreamIsSilent | app/backend/chat/base_chat.py:176-181 | When the producer fails after the consumer's last flag check, and the consumer then takes the sentinel with nothing streamed, only the user message is saved, nothing is yielded and no fallback runs. |
| Turn.EmptyErrorMessageStillFallsBack | app/backend/chat/base_chat.py:181 | An error whose message is empty is falsy for both flag checks, so the loop goes on and the fallback still runs and is saved. |
| Bots.LoadConfig | app/chat.py:219-237 | `_load_config`. It has no contract of its own. `Bots.UnreadableConfigFailsOpen`, `Bots.LoadConfigReadsOnlyItsFile`, `Bots.InitSystemPrompt`, `Bots.NoBotIdGivesEmptyPrompt` and `Bots.EmptyConfigFileRaises` state its properties. |
| Bots.UnreadableConfigFailsOpen | app/chat.py:219-237 | Without a given id, or with a configuration file that is missing or fails to load, the configuration is `{}`: the constructor does not raise, and the system prompt is the knowledge appended to the empty base prompt. |
| Bots.LoadConfigReadsOnlyItsFile | app/chat.py:219-237 | Two file systems that agree on the id's configuration path give the same configuration. |
| Bots.PathsAreInjective | app/chat.py:224 | Distinct bot ids have distinct configuration paths, and likewise distinct knowledge paths. |
| Bots.AppendKnowledge | app/chat.py:239-261 | The base prompt comes back unchanged when no id is given, the knowledge file is missing or it fails to load, and whenever the base prompt is not a string. Otherwise the base prompt is a prefix of the result, and what follows it is exactly the knowledge header and the dump of the loaded knowledge. |
| Bots.AppendKnowledgeReadsOnlyItsFile | app/chat.py:243-251 | Two file systems that agree on the id's knowledge path give the same prompt. |
| Bots.InitSystemPrompt | app/chat.py:207-217 | The constructor raises `AttributeError` exactly when the loaded configuration is not a dict. Otherwise a string "base_prompt" (default "") is a prefix of the system prompt, any other base prompt is passed on unchanged, and without a bot id the prompt is "". |
| Bots.InitPromptReadsOnlyBasePrompt | app/chat.py:207-215 | Of the configuration only "base_prompt" reaches the system prompt: configurations that agree on it, with the same knowledge file, give the same prompt. |
| Bots.NoBotIdGivesEmptyPrompt | app/chat.py:207-224 | Without a bot id, or with an empty one, the chat gets the empty system prompt. |
| Bots.EmptyConfigFileRaises | app/chat.py:209-212 | A configuration file that parses to `None` makes the constructor raise on `.get`. |
| Bots.ScanFile | app/chat.py:351-360 | What one listed file adds: a truthy dict with a hashable "id" gives its entry, and anything else, including a file that fails to load, is skipped. It has no contract of its own. `Bots.ScanHasContributedIds` and `Bots.SkippedFileChangesNothing` state its effect on the scan. |
| Bots.Scan | app/chat.py:350-360 | The `for config_file in ...` loop in listing order. It has no contract of its own. `Bots.ScanKeysMatch`, `Bots.ScanHasContributedIds`, `Bots.ScanIsLastWins` and `Bots.SkippedFileChangesNothing` state its properties. |
| Bots.AvailableBots | app/chat.py:342-362 | No configuration directory gives no bots, and every bot is stored under its own configuration's "id". |
| Bots.ScanKeysMatch | app/chat.py:355-357 | After any prefix of the listing, every key of the table is the "id" of the configuration stored under it. |
| Bots.ScanHasContributedIds | app/chat.py:350-357 | An id is in the table if and only if some listed file loads to a truthy dict with that hashable "id". |
| Bots.ScanIsLastWins | app/chat.py:350-357 | The configuration kept for an id is that of the last listed file contributing it; no later file contributes it. |
| Bots.SkippedFileChangesNothing | app/chat.py:350-360 | A file that fails to load or has no usable id, anywhere in the listing, leaves the table as if it were not listed, and the scan goes on. |

## Left out

- The producer thread, its event loop, the `asyncio.Queue` and the `wait_for` timing are not modelled. This is concurrency machinery, and the consumer's trace of observations replaces it.
- The model API is not modelled. This covers `get_client`, `AnthropicBedrock` and every `client.messages.create` call. A request is recorded only as its model, system parameter, messages and streaming flag. The fixed `max_tokens`, `temperature`, `top_p` and `top_k` arguments are left out.
- How streamed SDK chunks become text is not modelled. The model covers only the producer's `if text:` filter, as the `ProducerChunks` assumption.
- SQLAlchemy sessions and the `ChatMessage` table are not modelled. The store is a list of records. A save either appends its record or raises and is swallowed. Row ids and timestamps are left out.
- `os.getenv`, `.env` loading and every `print` are left out. The region prefix and the model base are parameters.
- `os.path.exists`, `open`, `Path.glob`, `yaml.safe_load` and `yaml.dump` are oracle inputs. The order of the glob listing is whatever the input says.
- `Fallback.ExtractContent`: block texts and dict values are strings in the model. The source concatenates whatever they hold, and a non-string would raise inside the fallback's `try`.
- `Turn.GetResponse`: the fallback's response is a string. A non-list `content` that is not a string would be saved and yielded as it is.
- `Turn.GetResponse`: the message is a string. A `None` message goes to the guard like the empty one.
- `Messages.FormatMessages`: the history is a sequence. A `None` history takes the same path as an empty one.
- `Values.PyValue`: YAML floats, dates, binary values and non-string dict keys are not represented. A float, date or binary `id` is a hashable scalar that the scan keeps like an integer id; as a base prompt or message content it is one more non-string value. The code only ever looks up string keys, so a dict's non-string keys change no result here.
- `Bots.ScanFile`: `True` and `1` are distinct dictionary keys here, but Python treats them as the same key.
- The generator is not modelled past its last event. If the caller abandons it, the remaining observations are simply never consumed.
- The UI and server wiring are not part of this model: `create_interface`, `get_examples`, the Gradio and FastAPI apps and the duplicate formatting loops in the server modules. The UI callbacks are modelled only as the shape of the history they hand to `get_response`.

=== FILE: bots.dfy ===
/**
 * Bot configuration and system-prompt resolution in `ChatInterface`
 * (`app/chat.py`): `_load_config`, `_append_knowledge_base`, the constructor
 * that combines them, and the module-level `get_available_bots` scan.
 *
 * The file system and the YAML library are oracles: `files(path)` says
 * whether a path is missing, fails to open or parse, or parses to a value, and
 * `dump` is `yaml.dump`, left uninterpreted.
 */
module Bots {
  import opened Wrappers
  import opened Values
  import opened Text

  /** What opening and `yaml.safe_load`-ing one path gives. */
  datatype FileState = Missing | ParseError(e: string) | Parsed(v: PyValue)

  /** A bot id argument: `None` or a string; both `None` and `""` are falsy. */
  predicate Given(botId: Option<string>) {
    botId.Some? && botId.value != ""
  }

  const ConfigDir: string := "app/config/bots/"
  const ConfigSuffix: string := "-config.yaml"
  const KnowledgeDir: string := "app/knowledge/"
  const KnowledgeSuffix: string := ".yaml"

  /** The text put between the base prompt and the dumped knowledge. */
  const KnowledgeHeader: string := "\n\nHere is additional knowledge you have:\n"

  function ConfigPath(id: string): string {
    ConfigDir + id + ConfigSuffix
  }

  function KnowledgePath(id: string): string {
    KnowledgeDir + id + KnowledgeSuffix
  }

  /**
   * `_load_config(bot_id)`: the parsed configuration, or `{}` when no id is
   * given, the file is missing or it cannot be loaded. The parsed value is
   * returned whatever it is, `None` for an empty file included.
   */
  function LoadConfig(botId: Option<string>, files: string -> FileState): PyValue {
    if !Given(botId) then EmptyDict
    else
      match files(ConfigPath(botId.value))
      case Missing => EmptyDict
      case ParseError(_) => EmptyDict
      case Parsed(v) => v
  }

  /**
   * `_append_knowledge_base(bot_id, base_prompt)`. The base prompt comes from
   * the configuration and need not be a string: concatenating anything else
   * raises `TypeError` inside the `try`, which also returns the base prompt.
   */
  function AppendKnowledge(botId: Option<string>, basePrompt: PyValue,
                           files: string -> FileState, dump: PyValue -> string): (prompt: PyValue)
    ensures basePrompt.PStr? ==> prompt.PStr? && StartsWith(prompt.s, basePrompt.s)
    ensures !basePrompt.PStr? ==> prompt == basePrompt
    ensures !(Given(botId) && files(KnowledgePath(botId.value)).Parsed?) ==> prompt == basePrompt
    ensures Given(botId) && files(KnowledgePath(botId.value)).Parsed? && basePrompt.PStr? ==>
      prompt.s[|basePrompt.s|..] == KnowledgeHeader + dump(files(KnowledgePath(botId.value)).v)
  {
    if !Given(botId) then basePrompt
    else
      match files(KnowledgePath(botId.value))
      case Missing => basePrompt
      case ParseError(_) => basePrompt
      case Parsed(knowledge) =>
        match basePrompt
        case PStr(s) =>
          var r := s + (KnowledgeHeader + dump(knowledge));
          assert r[..|s|] == s && r[|s|..] == KnowledgeHeader + dump(knowledge);
          PStr(r)
        case _ => basePrompt
  }

  /** The `AttributeError` of calling `.get` on a value that is not a dict. */
  datatype AttributeError = AttributeError(typeName: string, attribute: string)

  /**
   * `ChatInterface.__init__`: the system prompt handed to `BaseChat`, built from
   * the configuration's "base_prompt" (default `""`) and the knowledge file.
   * A configuration that is not a dict (an empty file gives `None`) makes
   * `self.config.get` raise.
   */
  function InitSystemPrompt(botId: Option<string>, files: string -> FileState, dump: PyValue -> string)
    : (r: Result<PyValue, AttributeError>)
    ensures r.Err? <==> !LoadConfig(botId, files).PDict?
    ensures r.Ok? ==> var base := BasePrompt(LoadConfig(botId, files).m);
      && (base.PStr? ==> r.value.PStr? && StartsWith(r.value.s, base.s))
      && (!base.PStr? ==> r.value == base)
    ensures r.Ok? && !Given(botId) ==> r.value == PStr("")
  {
    match LoadConfig(botId, files)
    case PDict(m) => Ok(AppendKnowledge(botId, BasePrompt(m), files, dump))
    case other => Err(AttributeError(TypeName(other), "get"))
  }

  /** `config.get("base_prompt", "")` on a dict configuration. */
  function BasePrompt(config: map<string, PyValue>): PyValue {
    if "base_prompt" in config then config["base_prompt"] else PStr("")
  }

  // ---------------------------------------------------------------------------
  // Properties of the configuration resolver.

  /** `_load_config` reads at most one path, the id's configuration file. */
  lemma LoadConfigReadsOnlyItsFile(botId: Option<string>, files1: string -> FileState, files2: string -> FileState)
    requires Given(botId) ==> files1(ConfigPath(botId.value)) == files2(ConfigPath(botId.value))
    ensures LoadConfig(botId, files1) == LoadConfig(botId, files2)
  {
  }

  /**
   * `_load_config` fails open: without a readable configuration file the
   * configuration is `{}`, so the constructor does not raise and the system
   * prompt is the knowledge appended to the empty base prompt.
   */
  lemma UnreadableConfigFailsOpen(botId: Option<string>, files: string -> FileState, dump: PyValue -> string)
    requires !(Given(botId) && files(ConfigPath(botId.value)).Parsed?)
    ensures LoadConfig(botId, files) == EmptyDict
    ensures InitSystemPrompt(botId, files, dump) == Ok(AppendKnowledge(botId, PStr(""), files, dump))
  {
  }

  /**
   * Distinct bot ids have distinct configuration and knowledge path strings.
   * This is about strings only, not files: ids such as `a` and `./a` give
   * distinct paths that name the same file.
   */
  lemma PathsAreInjective(id1: string, id2: string)
    ensures ConfigPath(id1) == ConfigPath(id2) ==> id1 == id2
    ensures KnowledgePath(id1) == KnowledgePath(id2) ==> id1 == id2
  {
    if ConfigPath(id1) == ConfigPath(id2) {
      assert |id1| == |id2|;
      assert id1 == ConfigPath(id1)[|ConfigDir|..|ConfigDir| + |id1|];
      assert id2 == ConfigPath(id2)[|ConfigDir|..|ConfigDir| + |id2|];
    }
    if KnowledgePath(id1) == KnowledgePath(id2) {
      assert |id1| == |id2|;
      assert id1 == KnowledgePath(id1)[|KnowledgeDir|..|KnowledgeDir| + |id1|];
      assert id2 == KnowledgePath(id2)[|KnowledgeDir|..|KnowledgeDir| + |id2|];
    }
  }

  /** `_append_knowledge_base` reads at most one path, the id's knowledge file. */
  lemma AppendKnowledgeReadsOnlyItsFile(botId: Option<string>, basePrompt: PyValue,
                                        files1: string -> FileState, files2: string -> FileState,
                                        dump: PyValue -> string)
    requires Given(botId) ==> files1(KnowledgePath(botId.value)) == files2(KnowledgePath(botId.value))
    ensures AppendKnowledge(botId, basePrompt, files1, dump) == AppendKnowledge(botId, basePrompt, files2, dump)
  {
  }

  /** Without a bot id the constructor gets the empty system prompt, which the model call then omits. */
  lemma NoBotIdGivesEmptyPrompt(files: string -> FileState, dump: PyValue -> string)
    ensures InitSystemPrompt(None, files, dump) == Ok(PStr(""))
    ensures InitSystemPrompt(Some(""), files, dump) == Ok(PStr(""))
  {
  }

  /**
   * Of the configuration only "base_prompt" reaches the system prompt: two
   * configuration files that agree on it, with the same knowledge file, give
   * the same prompt whatever their other keys hold.
   */
  lemma InitPromptReadsOnlyBasePrompt(id: string, m1: map<string, PyValue>, m2: map<string, PyValue>,
                                      files1: string -> FileState, files2: string -> FileState,
                                      dump: PyValue -> string)
    requires id != ""
    requires files1(ConfigPath(id)) == Parsed(PDict(m1)) && files2(ConfigPath(id)) == Parsed(PDict(m2))
    requires BasePrompt(m1) == BasePrompt(m2)
    requires files1(KnowledgePath(id)) == files2(KnowledgePath(id))
    ensures InitSystemPrompt(Some(id), files1, dump) == InitSystemPrompt(Some(id), files2, dump)
  {
    AppendKnowledgeReadsOnlyItsFile(Some(id), BasePrompt(m1), files1, files2, dump);
  }

  /** An empty configuration file parses to `None`, and the constructor then raises. */
  lemma EmptyConfigFileRaises(id: string, files: string -> FileState, dump: PyValue -> string)
    requires id != "" && files(ConfigPath(id)) == Parsed(PNone)
    ensures InitSystemPrompt(Some(id), files, dump) == Err(AttributeError("NoneType", "get"))
  {
  }

  // ---------------------------------------------------------------------------
  // get_available_bots

  /**
   * What one scanned file contributes: its id and configuration, or nothing.
   * Only a truthy dict with an "id" key qualifies. Other values either fail
   * `"id" in config` or raise on `config["id"]` (a string or list indexed by a
   * string, a number tested with `in`); an unhashable id raises on insertion.
   * Every such exception is caught and the file skipped.
   */
  function ScanFile(st: FileState): Option<(PyValue, PyValue)> {
    match st
    case Parsed(cfg) =>
      if Truthy(cfg) && cfg.PDict? && "id" in cfg.m && Hashable(cfg.m["id"]) then Some((cfg.m["id"], cfg))
      else None
    case _ => None
  }

  /** The `for config_file in ...` loop over the glob results, in order. */
  function Scan(paths: seq<string>, files: string -> FileState): map<PyValue, PyValue>
    decreases |paths|
  {
    if |paths| == 0 then map[]
    else
      var bots := Scan(paths[..|paths| - 1], files);
      match ScanFile(files(paths[|paths| - 1]))
      case Some(entry) => bots[entry.0 := entry.1]
      case None => bots
  }

  /**
   * `get_available_bots()`: `dirExists` is whether the configuration directory
   * exists, `paths` what `glob("*-config.yaml")` lists.
   */
  function AvailableBots(dirExists: bool, paths: seq<string>, files: string -> FileState): (bots: map<PyValue, PyValue>)
    ensures !dirExists ==> bots == map[]
    ensures KeyedById(bots)
  {
    if !dirExists then map[]
    else
      ScanKeysMatch(paths, files);
      Scan(paths, files)
  }

  /** Every key of a bot table is its configuration's "id". */
  predicate KeyedById(bots: map<PyValue, PyValue>) {
    forall id | id in bots :: bots[id].PDict? && "id" in bots[id].m && bots[id].m["id"] == id
  }

  /** The scan keeps every configuration under its own id. */
  lemma {:induction false} ScanKeysMatch(paths: seq<string>, files: string -> FileState)
    ensures KeyedById(Scan(paths, files))
    decreases |paths|
  {
    if |paths| > 0 {
      var init := paths[..|paths| - 1];
      ScanKeysMatch(init, files);
      var st := files(paths[|paths| - 1]);
      if ScanFile(st).Some? {
        var cfg := st.v;
        assert ScanFile(st) == Some((cfg.m["id"], cfg));
        assert Scan(paths, files) == Scan(init, files)[cfg.m["id"] := cfg];
      } else {
        assert Scan(paths, files) == Scan(init, files);
      }
    }
  }

  /** The file at position `i` contributes the entry `(id, cfg)`. */
  predicate Contributes(paths: seq<string>, files: string -> FileState, i: int, id: PyValue, cfg: PyValue)
    requires 0 <= i < |paths|
  {
    ScanFile(files(paths[i])) == Some((id, cfg))
  }

  /** The scan of a non-empty listing: the scan of all but the last file, updated by the last. */
  lemma ScanStep(paths: seq<string>, files: string -> FileState)
    requires |paths| > 0
    ensures var init := Scan(paths[..|paths| - 1], files);
      Scan(paths, files) == match ScanFile(files(paths[|paths| - 1]))
        case Some(entry) => init[entry.0 := entry.1]
        case None => init
  {
  }

  /** A file of the listing contributes the same entry in any longer listing that starts with it. */
  lemma ContributesInExtension(paths: seq<string>, files: string -> FileState, n: nat)
    requires n <= |paths|
    ensures forall i, id, cfg | 0 <= i < n ::
      Contributes(paths[..n], files, i, id, cfg) == Contributes(paths, files, i, id, cfg)
  {
    forall i, id, cfg | 0 <= i < n
      ensures Contributes(paths[..n], files, i, id, cfg) == Contributes(paths, files, i, id, cfg)
    {
      assert paths[..n][i] == paths[i];
    }
  }

  /** An id is present exactly when some scanned file contributes it. */
  lemma {:induction false} ScanHasContributedIds(paths: seq<string>, files: string -> FileState, id: PyValue)
    ensures id in Scan(paths, files) <==> exists i, cfg | 0 <= i < |paths| :: Contributes(paths, files, i, id, cfg)
    decreases |paths|
  {
    if |paths| > 0 {
      var n := |paths| - 1;
      ScanHasContributedIds(paths[..n], files, id);
      ContributesInExtension(paths, files, n);
      ScanStep(paths, files);
      var last := ScanFile(files(paths[n]));
      if last.Some? && last.value.0 == id {
        assert Contributes(paths, files, n, id, last.value.1);
      } else {
        assert forall cfg :: !Contributes(paths, files, n, id, cfg);
      }
    }
  }

  /**
   * The configuration kept for an id is the one of the last file that
   * contributes it: later files with the same id overwrite earlier ones.
   */
  lemma {:induction false} ScanIsLastWins(paths: seq<string>, files: string -> FileState, id: PyValue)
    requires id in Scan(paths, files)
    ensures exists i | 0 <= i < |paths| ::
      && Contributes(paths, files, i, id, Scan(paths, files)[id])
      && forall j, cfg | i < j < |paths| :: !Contributes(paths, files, j, id, cfg)
    decreases |paths|
  {
    var n := |paths| - 1;
    ScanStep(paths, files);
    var last := ScanFile(files(paths[n]));
    if last.Some? && last.value.0 == id {
      assert Contributes(paths, files, n, id, Scan(paths, files)[id]);
    } else {
      assert forall cfg :: !Contributes(paths, files, n, id, cfg);
      ScanIsLastWins(paths[..n], files, id);
      LastWinsExtends(paths, paths[..n], n, files, id, Scan(paths, files)[id]);
    }
  }

  /** A last contributor of `id` in `init` stays the last one when the file appended after `init` does not contribute `id`. */
  lemma LastWinsExtends(paths: seq<string>, init: seq<string>, n: nat, files: string -> FileState, id: PyValue, kept: PyValue)
    requires n < |paths| == n + 1 && init == paths[..n]
    requires forall cfg :: !Contributes(paths, files, n, id, cfg)
    requires exists i | 0 <= i < n ::
      && Contributes(init, files, i, id, kept)
      && forall j, cfg | i < j < n :: !Contributes(init, files, j, id, cfg)
    ensures exists i | 0 <= i < |paths| ::
      && Contributes(paths, files, i, id, kept)
      && forall j, cfg | i < j < |paths| :: !Contributes(paths, files, j, id, cfg)
  {
    ContributesInExtension(paths, files, n);
    var i :| 0 <= i < n && Contributes(init, files, i, id, kept)
      && forall j, cfg | i < j < n :: !Contributes(init, files, j, id, cfg);
    assert Contributes(paths, files, i, id, kept);
    forall j, cfg | i < j < |paths| ensures !Contributes(paths, files, j, id, cfg) {
      if j < n {
        assert !Contributes(init, files, j, id, cfg);
      }
    }
  }

  /** A file that does not load, or loads to something without a usable id, changes nothing: the scan goes on. */
  lemma {:induction false} SkippedFileChangesNothing(before: seq<string>, bad: string, after: seq<string>, files: string -> FileState)
    requires ScanFile(files(bad)).None?
    ensures Scan(before + [bad] + after, files) == Scan(before + after, files)
    decreases |after|
  {
    if |after| == 0 {
      assert (before + [bad] + after)[..|before| + 1 - 1] == before;
      assert before + after == before;
    } else {
      var n := |after| - 1;
      SkippedFileChangesNothing(before, bad, after[..n], files);
      assert (before + [bad] + after)[..|before + [bad] + after| - 1] == before + [bad] + after[..n];
      assert (before + after)[..|before + after| - 1] == before + after[..n];
    }
  }
}

=== FILE: fallback.dfy ===
/**
 * The text extraction of the non-streaming fallback in
 * `BaseChat.get_response` (`get_non_streaming_response`): how the content of
 * one complete model reply becomes the response string.
 */
module Fallback {
  import opened Text

  /** One element of a list-valued `response.content`. */
  datatype Block =
    | TextBlock(text: string)            // an object with a `text` attribute
    | DictBlock(d: map<string, string>)  // a plain dict, read through its "text" key
    | OtherBlock                         // anything else (a tool-use block, say)

  /** The `content` of a non-streaming reply. */
  datatype Reply =
    | NoContent               // the reply has no `content` attribute
    | ListContent(blocks: seq<Block>)
    | ScalarContent(s: string) // a non-list content, used as it is

  /** The text one block contributes; blocks with neither shape contribute nothing. */
  function BlockText(b: Block): string {
    match b
    case TextBlock(t) => t
    case DictBlock(d) => if "text" in d then d["text"] else ""
    case OtherBlock => ""
  }

  /** The texts of `blocks` joined in order. */
  function BlocksText(blocks: seq<Block>): string {
    Concat(seq(|blocks|, i requires 0 <= i < |blocks| => BlockText(blocks[i])))
  }

  /** The response string the fallback produces for a reply. */
  function ReplyText(reply: Reply): string {
    match reply
    case NoContent => ""
    case ListContent(blocks) => BlocksText(blocks)
    case ScalarContent(s) => s
  }

  /** The extraction as the source writes it: `content = ""` then `+=` over the blocks. */
  method ExtractContent(reply: Reply) returns (content: string)
    ensures content == ReplyText(reply)
  {
    content := "";
    match reply
    case NoContent =>
    case ScalarContent(s) =>
      content := s;
    case ListContent(blocks) =>
      var i := 0;
      while i < |blocks|
        invariant 0 <= i <= |blocks|
        invariant content == BlocksText(blocks[..i])
      {
        var b := blocks[i];
        match b {
          case TextBlock(t) =>
            content := content + t;
          case DictBlock(d) =>
            if "text" in d {
              content := content + d["text"];
            }
          case OtherBlock =>
        }
        BlocksTextSnoc(blocks[..i], blocks[i]);
        assert blocks[..i + 1] == blocks[..i] + [blocks[i]];
        i := i + 1;
      }
      assert blocks[..|blocks|] == blocks;
  }

  lemma BlocksTextSnoc(blocks: seq<Block>, b: Block)
    ensures BlocksText(blocks + [b]) == BlocksText(blocks) + BlockText(b)
  {
    var parts := seq(|blocks + [b]|, i requires 0 <= i < |blocks + [b]| => BlockText((blocks + [b])[i]));
    assert parts[..|parts| - 1] == seq(|blocks|, i requires 0 <= i < |blocks| => BlockText(blocks[i]));
  }

  /** Extraction distributes over splitting the block list. */
  lemma {:induction false} BlocksTextAppend(a: seq<Block>, b: seq<Block>)
    ensures BlocksText(a + b) == BlocksText(a) + BlocksText(b)
    decreases |b|
  {
    if |b| == 0 {
      assert a + b == a;
    } else {
      var init := b[..|b| - 1];
      BlocksTextAppend(a, init);
      assert a + b == (a + init) + [b[|b| - 1]];
      BlocksTextSnoc(a + init, b[|b| - 1]);
      BlocksTextSnoc(init, b[|b| - 1]);
      assert init + [b[|b| - 1]] == b;
    }
  }

  /**
   * Blocks without text are skipped: removing one, whether an object without a
   * `text` attribute or a dict of any other keys, does not change the result.
   */
  lemma SkipsTextlessBlocks(a: seq<Block>, b: seq<Block>)
    ensures BlocksText(a + [OtherBlock] + b) == BlocksText(a + b)
    ensures forall d: map<string, string> | "text" !in d :: BlocksText(a + [DictBlock(d)] + b) == BlocksText(a + b)
  {
    BlocksTextAppend(a, b);
    SkipsTextless(a, b, OtherBlock);
    forall d: map<string, string> | "text" !in d
      ensures BlocksText(a + [DictBlock(d)] + b) == BlocksText(a + b)
    {
      SkipsTextless(a, b, DictBlock(d));
    }
  }

  lemma SkipsTextless(a: seq<Block>, b: seq<Block>, blk: Block)
    requires BlockText(blk) == ""
    ensures BlocksText(a + [blk] + b) == BlocksText(a) + BlocksText(b)
  {
    BlocksTextAppend(a + [blk], b);
    BlocksTextSnoc(a, blk);
  }
}

=== FILE: messages.dfy ===
/**
 * `BaseChat.format_messages`: turning the UI's conversation history plus the
 * new user message into the request payload of the model API.
 *
 * The history is a list of arbitrary Python values. Entries that are not
 * dicts are skipped; a dict is indexed with `h["role"]` and, when its role is
 * kept, `h["content"]`, so a missing key raises `KeyError` instead of being
 * skipped. The first malformed entry in history order decides the error.
 */
module Messages {
  import opened Wrappers
  import opened Values

  datatype Role = User | Assistant

  /** One `{"role": ..., "content": ...}` dict of the request payload. */
  datatype Message = Message(role: Role, content: PyValue)

  /** The `KeyError` raised by indexing a history dict with a missing key. */
  datatype KeyError = KeyError(key: string)

  /** `str(KeyError(k))`, which Python renders with the key quoted: `'role'`. */
  function KeyErrorText(e: KeyError): string {
    "'" + e.key + "'"
  }

  /** The loop body of `format_messages` for one history entry: nothing, one message, or a `KeyError`. */
  function FormatEntry(h: PyValue): Result<seq<Message>, KeyError> {
    match h
    case PDict(d) =>
      if "role" !in d then Err(KeyError("role"))
      else if d["role"] == PStr("user") then
        if "content" in d then Ok([Message(User, d["content"])]) else Err(KeyError("content"))
      else if d["role"] == PStr("assistant") then
        if "content" in d then Ok([Message(Assistant, d["content"])]) else Err(KeyError("content"))
      else Ok([])
    case _ => Ok([])
  }

  /** The `for h in history` loop, entry by entry from the front. */
  function FormatHistory(history: seq<PyValue>): Result<seq<Message>, KeyError> {
    if |history| == 0 then Ok([])
    else
      match FormatEntry(history[0])
      case Err(e) => Err(e)
      case Ok(head) =>
        match FormatHistory(history[1..])
        case Err(e) => Err(e)
        case Ok(tail) => Ok(head + tail)
  }

  /**
   * `format_messages(message, history)`. A `None` history and an empty one
   * take the same path (`if history:`), so the model takes a sequence.
   */
  function FormatMessages(message: string, history: seq<PyValue>): (r: Result<seq<Message>, KeyError>)
    ensures r.Ok? <==> WellFormedHistory(history)
    ensures r.Ok? ==> |r.value| >= 1 && r.value[|r.value| - 1] == Message(User, PStr(message))
  {
    FormatHistoryFailsAtFirstMalformed(history);
    match FormatHistory(history)
    case Err(e) => Err(e)
    case Ok(kept) => Ok(kept + [Message(User, PStr(message))])
  }

  // ---------------------------------------------------------------------------
  // Reference description of which entries the formatter keeps and which raise.

  /** A dict whose role is "user" or "assistant": the entries forwarded to the model. */
  predicate Kept(h: PyValue) {
    h.PDict? && "role" in h.m && (h.m["role"] == PStr("user") || h.m["role"] == PStr("assistant"))
  }

  /** A dict the formatter cannot read: no "role", or a kept role without "content". */
  predicate Malformed(h: PyValue) {
    h.PDict? && ("role" !in h.m || (Kept(h) && "content" !in h.m))
  }

  /** The key whose lookup fails on a malformed entry. */
  function MissingKey(h: PyValue): KeyError
    requires Malformed(h)
  {
    if "role" !in h.m then KeyError("role") else KeyError("content")
  }

  /** The message a well-formed kept entry becomes: role and content unchanged. */
  function AsMessage(h: PyValue): Message
    requires Kept(h) && "content" in h.m
  {
    Message(if h.m["role"] == PStr("user") then User else Assistant, h.m["content"])
  }

  predicate WellFormedHistory(history: seq<PyValue>) {
    forall i | 0 <= i < |history| :: !Malformed(history[i])
  }

  /** `idx` lists, strictly increasing, exactly the positions of the kept entries of `history`. */
  predicate KeptPositions(history: seq<PyValue>, idx: seq<nat>) {
    && OnlyKept(history, idx)
    && Increasing(idx)
    && (forall i {:trigger i in idx} | 0 <= i < |history| && Kept(history[i]) :: i in idx)
  }

  predicate OnlyKept(history: seq<PyValue>, idx: seq<nat>) {
    forall k | 0 <= k < |idx| :: idx[k] < |history| && Kept(history[idx[k]])
  }

  predicate Increasing(idx: seq<nat>) {
    forall k, l | 0 <= k < l < |idx| :: idx[k] < idx[l]
  }

  // ---------------------------------------------------------------------------
  // Properties.

  /**
   * One history entry: a malformed dict raises the `KeyError` of its missing
   * key, a kept dict becomes its message, and everything else is skipped.
   */
  lemma FormatEntryCases(h: PyValue)
    ensures Malformed(h) ==> FormatEntry(h) == Err(MissingKey(h))
    ensures !Malformed(h) ==> FormatEntry(h) == Ok(if Kept(h) then [AsMessage(h)] else [])
  {
    match h
    case PDict(d) =>
      if "role" !in d {
      } else if d["role"] == PStr("user") {
        assert Kept(h);
      } else if d["role"] == PStr("assistant") {
        assert Kept(h);
      } else {
        assert !Kept(h) && !Malformed(h);
      }
    case _ =>
  }

  lemma {:induction false} FormatHistoryKeepsInOrder(history: seq<PyValue>) returns (idx: seq<nat>)
    requires WellFormedHistory(history)
    ensures FormatHistory(history).Ok?
    ensures |FormatHistory(history).value| == |idx|
    ensures KeptPositions(history, idx)
    ensures forall k | 0 <= k < |idx| ::
      "content" in history[idx[k]].m && FormatHistory(history).value[k] == AsMessage(history[idx[k]])
  {
    if |history| == 0 {
      idx := [];
    } else {
      assert WellFormedHistory(history[1..]) by {
        forall i | 0 <= i < |history[1..]| ensures !Malformed(history[1..][i]) {
          assert history[1..][i] == history[i + 1];
        }
      }
      var rest := FormatHistoryKeepsInOrder(history[1..]);
      var tail := FormatHistory(history[1..]).value;
      idx := ShiftPositions(history, rest);
      var off := if Kept(history[0]) then 1 else 0;
      var head := if Kept(history[0]) then [AsMessage(history[0])] else [];
      assert !Malformed(history[0]);
      FormatEntryCases(history[0]);
      var r := FormatHistory(history).value;
      assert r == head + tail;
      forall k | 0 <= k < |idx|
        ensures "content" in history[idx[k]].m && r[k] == AsMessage(history[idx[k]])
      {
        if k >= off {
          assert idx[|idx| - |rest|..][k - off] == Shift(rest)[k - off];
          assert history[idx[k]] == history[1..][rest[k - off]];
          assert r[k] == tail[k - off];
        } else {
          assert idx[k] == 0;
        }
      }
    }
  }

  /** Lifts the kept positions of `history[1..]` to those of `history`. */
  lemma ShiftPositions(history: seq<PyValue>, rest: seq<nat>) returns (idx: seq<nat>)
    requires |history| > 0 && KeptPositions(history[1..], rest)
    ensures KeptPositions(history, idx)
    ensures |idx| == |rest| + (if Kept(history[0]) then 1 else 0)
    ensures Kept(history[0]) ==> idx[0] == 0
    ensures idx[|idx| - |rest|..] == Shift(rest)
  {
    var shifted := Shift(rest);
    ShiftedOnlyKept(history, rest);
    ShiftedCoversTail(history, rest);
    ShiftIncreasing(rest);
    if Kept(history[0]) {
      idx := [0] + shifted;
      PrependHead(history, shifted);
      assert idx[1..] == shifted;
    } else {
      idx := shifted;
      assert idx[0..] == shifted;
      forall i | 0 <= i < |history| && Kept(history[i]) ensures i in idx {
        assert i != 0;
      }
    }
  }

  lemma ShiftedOnlyKept(history: seq<PyValue>, rest: seq<nat>)
    requires |history| > 0 && OnlyKept(history[1..], rest)
    ensures OnlyKept(history, Shift(rest))
  {
    var shifted := Shift(rest);
    forall k | 0 <= k < |shifted| ensures shifted[k] < |history| && Kept(history[shifted[k]]) {
      assert history[shifted[k]] == history[1..][rest[k]];
    }
  }

  lemma ShiftedCoversTail(history: seq<PyValue>, rest: seq<nat>)
    requires |history| > 0 && KeptPositions(history[1..], rest)
    ensures forall i | 1 <= i < |history| && Kept(history[i]) :: i in Shift(rest)
  {
    var shifted := Shift(rest);
    forall i | 1 <= i < |history| && Kept(history[i]) ensures i in shifted {
      assert history[1..][i - 1] == history[i];
      assert i - 1 in rest;
      var k :| 0 <= k < |rest| && rest[k] == i - 1;
      assert shifted[k] == i;
    }
  }

  /** With a kept first entry, position 0 followed by the shifted tail positions are the kept positions. */
  lemma PrependHead(history: seq<PyValue>, shifted: seq<nat>)
    requires |history| > 0 && Kept(history[0])
    requires OnlyKept(history, shifted) && Increasing([0] + shifted)
    requires forall i | 1 <= i < |history| && Kept(history[i]) :: i in shifted
    ensures KeptPositions(history, [0] + shifted)
  {
    var idx := [0] + shifted;
    forall k | 0 <= k < |idx| ensures idx[k] < |history| && Kept(history[idx[k]]) {
      if k > 0 { assert idx[k] == shifted[k - 1]; }
    }
    forall i | 0 <= i < |history| && Kept(history[i]) ensures i in idx {
      if i == 0 {
        assert idx[0] == i;
      } else {
        var k :| 0 <= k < |shifted| && shifted[k] == i;
        assert idx[k + 1] == shifted[k];
      }
    }
  }

  lemma ShiftIncreasing(rest: seq<nat>)
    requires Increasing(rest)
    ensures Increasing(Shift(rest)) && Increasing([0] + Shift(rest))
  {
    var sh := Shift(rest);
    forall k, l | 0 <= k < l < |sh| + 1 ensures ([0] + sh)[k] < ([0] + sh)[l] {
      assert ([0] + sh)[l] == sh[l - 1];
      if k > 0 { assert ([0] + sh)[k] == sh[k - 1]; }
    }
  }

  function Shift(rest: seq<nat>): (r: seq<nat>)
    ensures |r| == |rest| && forall k | 0 <= k < |rest| :: r[k] == rest[k] + 1
  {
    seq(|rest|, k requires 0 <= k < |rest| => rest[k] + 1)
  }

  /**
   * On a well-formed history the request holds exactly the user and assistant
   * dicts, in their original order with role and content unchanged, followed by
   * the new user message; its length is the number of kept entries plus one.
   */
  lemma FormatKeepsExactlyTheConversation(message: string, history: seq<PyValue>) returns (idx: seq<nat>)
    requires WellFormedHistory(history)
    ensures FormatMessages(message, history).Ok?
    ensures var r := FormatMessages(message, history).value;
      && |r| == |idx| + 1
      && r[|idx|] == Message(User, PStr(message))
      && KeptPositions(history, idx)
      && forall k | 0 <= k < |idx| :: "content" in history[idx[k]].m && r[k] == AsMessage(history[idx[k]])
  {
    idx := FormatHistoryKeepsInOrder(history);
  }

  /**
   * Malformed dicts are not skipped: the formatter fails exactly when some
   * entry is malformed, and then with the `KeyError` of the first one.
   */
  lemma {:induction false} FormatFailsAtFirstMalformed(message: string, history: seq<PyValue>)
    ensures FormatMessages(message, history).Err? <==> !WellFormedHistory(history)
    ensures FormatMessages(message, history).Err? ==>
      exists i | 0 <= i < |history| ::
        && Malformed(history[i])
        && WellFormedHistory(history[..i])
        && FormatMessages(message, history).error == MissingKey(history[i])
  {
    FormatHistoryFailsAtFirstMalformed(history);
  }

  lemma {:induction false} FormatHistoryFailsAtFirstMalformed(history: seq<PyValue>)
    ensures FormatHistory(history).Err? <==> !WellFormedHistory(history)
    ensures FormatHistory(history).Err? ==>
      exists i | 0 <= i < |history| ::
        && Malformed(history[i])
        && WellFormedHistory(history[..i])
        && FormatHistory(history).error == MissingKey(history[i])
  {
    if |history| > 0 {
      FormatHistoryFailsAtFirstMalformed(history[1..]);
      FormatEntryCases(history[0]);
      if Malformed(history[0]) {
        assert WellFormedHistory(history[..0]);
      } else {
        FirstMalformedAfterHead(history);
      }
    }
  }

  /** Past a readable first entry, the first malformed entry of the tail is the first of the whole history. */
  lemma FirstMalformedAfterHead(history: seq<PyValue>)
    requires |history| > 0 && !Malformed(history[0]) && FormatEntry(history[0]).Ok?
    requires FormatHistory(history[1..]).Err? <==> !WellFormedHistory(history[1..])
    requires FormatHistory(history[1..]).Err? ==>
      exists i | 0 <= i < |history[1..]| ::
        && Malformed(history[1..][i])
        && WellFormedHistory(history[1..][..i])
        && FormatHistory(history[1..]).error == MissingKey(history[1..][i])
    ensures FormatHistory(history).Err? <==> !WellFormedHistory(history)
    ensures FormatHistory(history).Err? ==>
      exists i | 0 <= i < |history| ::
        && Malformed(history[i])
        && WellFormedHistory(history[..i])
        && FormatHistory(history).error == MissingKey(history[i])
  {
    assert WellFormedHistory(history) <==> WellFormedHistory(history[1..]) by {
      forall i | 1 <= i < |history| ensures history[i] == history[1..][i - 1] { }
    }
    if FormatHistory(history).Err? {
      var j :| 0 <= j < |history[1..]| && Malformed(history[1..][j])
        && WellFormedHistory(history[1..][..j])
        && FormatHistory(history[1..]).error == MissingKey(history[1..][j]);
      assert history[..j + 1] == [history[0]] + history[1..][..j];
      assert Malformed(history[j + 1]) && WellFormedHistory(history[..j + 1]);
    }
  }

  /** The dict the UI appends for the message just typed (`app/chat.py`, `user`). */
  function UserEntry(text: string): PyValue {
    PDict(map["role" := PStr("user"), "content" := PStr(text)])
  }

  /**
   * The UI hands `get_response` the message together with a history whose last
   * entry already is that message, so the request carries it twice at the end.
   */
  lemma UiRequestRepeatsUserMessage(prior: seq<PyValue>, text: string)
    requires WellFormedHistory(prior)
    ensures var r := FormatMessages(text, prior + [UserEntry(text)]);
      && r.Ok? && |r.value| >= 2
      && r.value[|r.value| - 2..] == [Message(User, PStr(text)), Message(User, PStr(text))]
  {
    var h := prior + [UserEntry(text)];
    assert WellFormedHistory(h) by {
      forall i | 0 <= i < |h| ensures !Malformed(h[i]) {
        if i < |prior| { assert h[i] == prior[i]; }
      }
    }
    var idx := FormatKeepsExactlyTheConversation(text, h);
    assert Kept(h[|prior|]);
    assert |prior| in idx;
    var k :| 0 <= k < |idx| && idx[k] == |prior|;
    var last := |idx| - 1;
    assert idx[last] < |h|;
    if k != last {
      assert false;
    }
  }
}

=== FILE: model_id.dfy ===
/**
 * The model-identifier rule of `BaseChat.__init__`: the region prefix and a
 * dot are put in front of the base model name unless it already starts with
 * them.
 */
module ModelId {
  import opened Text

  /** `AWS_BEDROCK_REGION_PREFIX` when the environment does not set it. */
  const DefaultRegionPrefix: string := ""

  /** `AWS_BEDROCK_MODEL_BASE` when the environment does not set it. */
  const DefaultModelBase: string := "anthropic.claude-3-7-sonnet-20240229-v1:0"

  /** The full model identifier for a region prefix and a base model name. */
  function ComposeModelId(prefix: string, base: string): (id: string)
    ensures StartsWith(id, prefix + ".")
    ensures |base| <= |id| && id[|id| - |base|..] == base
    ensures id == base <==> StartsWith(base, prefix + ".")
    ensures !StartsWith(base, prefix + ".") ==> |id| == |prefix| + 1 + |base|
  {
    if StartsWith(base, prefix + ".") then base else prefix + "." + base
  }

  /** Composing an identifier that is already composed changes nothing. */
  lemma ComposeIdempotent(prefix: string, base: string)
    ensures ComposeModelId(prefix, ComposeModelId(prefix, base)) == ComposeModelId(prefix, base)
  {
  }

  /**
   * With the empty default prefix a base that does not start with a dot gets
   * a leading dot; one that does is kept as it is.
   */
  lemma EmptyPrefixAddsLeadingDot(base: string)
    ensures |base| > 0 && base[0] == '.' ==> ComposeModelId("", base) == base
    ensures (|base| == 0 || base[0] != '.') ==> ComposeModelId("", base) == "." + base
  {
    assert "" + "." == ".";
    if |base| > 0 && base[0] == '.' {
      assert base[..1] == ".";
    } else {
      assert !StartsWith(base, ".");
    }
  }

  /** Without any environment settings the identifier is the default base behind a lone dot. */
  lemma DefaultModelIdIsDotted()
    ensures ComposeModelId(DefaultRegionPrefix, DefaultModelBase) == "." + DefaultModelBase
  {
    assert DefaultModelBase[0] == 'a';
    EmptyPrefixAddsLeadingDot(DefaultModelBase);
  }
}

=== FILE: stream.dfy ===
/**
 * The consumer half of the streaming bridge in `BaseChat.get_response`: the
 * `while True` loop that polls the chunk queue.
 *
 * The producer thread, the `asyncio.Queue` and the 0.1-second `wait_for` are
 * replaced by the sequence of things the consumer observes, one per step:
 * the value of the error flag at the top of an iteration, a text chunk taken
 * from the queue, the `None` sentinel, or a poll timeout together with the
 * value of the done flag at that moment.
 */
module Stream {
  import opened Text

  datatype Obs =
    | ErrorFlagSet(e: string)   // the error flag read at the loop top holds `e`
    | Chunk(text: string)       // a text fragment dequeued
    | Sentinel                  // the `None` the producer enqueues last
    | Timeout(done: bool)       // `wait_for` timed out; `done` is the done flag

  /** How the loop was left. */
  datatype LoopEnd =
    | Broke             // `break` on the sentinel or on a timeout with the done flag set
    | FlagExit(e: string)  // `return` after reporting `Streaming error: e`
    | Suspended         // the observations ran out: the generator is still waiting

  /**
   * What the loop leaves behind: how it ended, the accumulated
   * `full_response`, the strings it yielded, and how many observations it took.
   */
  datatype LoopResult = LoopResult(end: LoopEnd, full: string, emitted: seq<string>, consumed: nat)

  /** The polling loop, started with `full_response` equal to `acc`. */
  function ConsumeLoop(trace: seq<Obs>, acc: string): (r: LoopResult)
    ensures r.consumed <= |trace|
    ensures r.end.Suspended? ==> r.consumed == |trace|
    ensures !r.end.Suspended? ==> r.consumed > 0
    ensures r.end.FlagExit? ==> r.end.e != ""
    decreases |trace|
  {
    if |trace| == 0 then LoopResult(Suspended, acc, [], 0)
    else
      match trace[0]
      case ErrorFlagSet(e) =>
        // `if streaming_error[0]:` treats an empty message as no error
        if e != "" then LoopResult(FlagExit(e), acc, [], 1)
        else Skip(ConsumeLoop(trace[1..], acc))
      case Chunk(s) =>
        var rest := ConsumeLoop(trace[1..], acc + s);
        LoopResult(rest.end, rest.full, [acc + s] + rest.emitted, rest.consumed + 1)
      case Sentinel => LoopResult(Broke, acc, [], 1)
      case Timeout(done) =>
        if done then LoopResult(Broke, acc, [], 1)
        else Skip(ConsumeLoop(trace[1..], acc))
  }

  /** Accounts for one observation that neither yields nor exits. */
  function Skip(r: LoopResult): LoopResult {
    r.(consumed := r.consumed + 1)
  }

  /** The texts of the chunks in `trace`, in order. */
  function ChunkTexts(trace: seq<Obs>): seq<string> {
    if |trace| == 0 then []
    else (if trace[0].Chunk? then [trace[0].text] else []) + ChunkTexts(trace[1..])
  }

  /** An observation that ends the loop. */
  predicate Exits(o: Obs) {
    o.Sentinel? || o == Timeout(true) || (o.ErrorFlagSet? && o.e != "")
  }

  /** The producer only enqueues text it found non-empty (`if text:`). */
  predicate ProducerChunks(trace: seq<Obs>) {
    forall i | 0 <= i < |trace| && trace[i].Chunk? :: trace[i].text != ""
  }

  // ---------------------------------------------------------------------------
  // Properties.

  /**
   * The loop stops at the first exiting observation and at no other: an error
   * flag holding a non-empty message, the sentinel, or a timeout with the done
   * flag set. It does not drain the queue after a timeout exit.
   */
  lemma {:induction false} LoopStopsAtFirstExit(trace: seq<Obs>, acc: string)
    ensures var r := ConsumeLoop(trace, acc);
      && (forall i | 0 <= i < r.consumed - 1 :: !Exits(trace[i]))
      && (r.end.Suspended? ==> r.consumed == |trace| && (|trace| == 0 || !Exits(trace[|trace| - 1])))
      && (r.end.Broke? ==> r.consumed > 0 && (trace[r.consumed - 1] == Sentinel || trace[r.consumed - 1] == Timeout(true)))
      && (r.end.FlagExit? ==> r.consumed > 0 && trace[r.consumed - 1] == ErrorFlagSet(r.end.e) && r.end.e != "")
  {
    NoExitBeforeEnd(trace, acc);
    LastObservationEnds(trace, acc);
  }

  lemma {:induction false} NoExitBeforeEnd(trace: seq<Obs>, acc: string)
    ensures var r := ConsumeLoop(trace, acc);
      forall i | 0 <= i < r.consumed - 1 :: !Exits(trace[i])
    decreases |trace|
  {
    if |trace| > 0 {
      var r := ConsumeLoop(trace, acc);
      match trace[0]
      case Chunk(s) =>
        NoExitBeforeEnd(trace[1..], acc + s);
        ShiftedIndex(trace, r.consumed);
      case ErrorFlagSet(e) =>
        if e == "" {
          NoExitBeforeEnd(trace[1..], acc);
          ShiftedIndex(trace, r.consumed);
        }
      case Timeout(done) =>
        if !done {
          NoExitBeforeEnd(trace[1..], acc);
          ShiftedIndex(trace, r.consumed);
        }
      case Sentinel =>
    }
  }

  lemma {:induction false} LastObservationEnds(trace: seq<Obs>, acc: string)
    ensures var r := ConsumeLoop(trace, acc);
      && (r.end.Suspended? ==> |trace| == 0 || !Exits(trace[|trace| - 1]))
      && (r.end.Broke? ==> trace[r.consumed - 1] == Sentinel || trace[r.consumed - 1] == Timeout(true))
      && (r.end.FlagExit? ==> trace[r.consumed - 1] == ErrorFlagSet(r.end.e))
    decreases |trace|
  {
    if |trace| > 0 {
      var r := ConsumeLoop(trace, acc);
      match trace[0]
      case Chunk(s) =>
        LastObservationEnds(trace[1..], acc + s);
        LastShifted(trace, r.consumed);
      case ErrorFlagSet(e) =>
        if e == "" {
          LastObservationEnds(trace[1..], acc);
          LastShifted(trace, r.consumed);
        }
      case Timeout(done) =>
        if !done {
          LastObservationEnds(trace[1..], acc);
          LastShifted(trace, r.consumed);
        }
      case Sentinel =>
    }
  }

  lemma LastShifted(trace: seq<Obs>, n: nat)
    requires 0 < |trace| && n <= |trace|
    ensures n > 1 ==> trace[n - 1] == trace[1..][n - 2]
    ensures |trace| > 1 ==> trace[|trace| - 1] == trace[1..][|trace[1..]| - 1]
  {
  }

  lemma ShiftedIndex(trace: seq<Obs>, n: nat)
    requires 0 < |trace| && n <= |trace|
    ensures forall i | 1 <= i < n :: trace[i] == trace[1..][i - 1]
  {
  }

  /**
   * Every yielded string is the concatenation of all chunks dequeued so far
   * (after the starting text), and `full_response` is that of all of them.
   */
  lemma {:induction false} YieldsAreCumulative(trace: seq<Obs>, acc: string)
    ensures Cumulative(trace, acc, ConsumeLoop(trace, acc))
    decreases |trace|
  {
    var r := ConsumeLoop(trace, acc);
    if |trace| == 0 {
      assert trace[..r.consumed] == [];
    } else {
      match trace[0]
      case Chunk(s) =>
        YieldsAreCumulative(trace[1..], acc + s);
        CumulativeChunkStep(trace, acc);
      case ErrorFlagSet(e) =>
        if e == "" {
          YieldsAreCumulative(trace[1..], acc);
          CumulativeSkipStep(trace, acc);
        } else {
          assert trace[..r.consumed] == [trace[0]];
        }
      case Timeout(done) =>
        if !done {
          YieldsAreCumulative(trace[1..], acc);
          CumulativeSkipStep(trace, acc);
        } else {
          assert trace[..r.consumed] == [trace[0]];
        }
      case Sentinel =>
        assert trace[..r.consumed] == [trace[0]];
    }
  }

  /** `r` yielded the running concatenations of the chunks among the first `r.consumed` observations. */
  predicate Cumulative(trace: seq<Obs>, acc: string, r: LoopResult)
    requires r.consumed <= |trace|
  {
    var texts := ChunkTexts(trace[..r.consumed]);
    && |r.emitted| == |texts|
    && (forall k | 0 <= k < |r.emitted| :: r.emitted[k] == acc + Concat(texts[..k + 1]))
    && r.full == acc + Concat(texts)
  }

  lemma CumulativeSkipStep(trace: seq<Obs>, acc: string)
    requires |trace| > 0 && (trace[0] == ErrorFlagSet("") || trace[0] == Timeout(false))
    requires Cumulative(trace[1..], acc, ConsumeLoop(trace[1..], acc))
    ensures Cumulative(trace, acc, ConsumeLoop(trace, acc))
  {
    var rest := ConsumeLoop(trace[1..], acc);
    var r := ConsumeLoop(trace, acc);
    assert r == Skip(rest);
    assert trace[..r.consumed] == [trace[0]] + trace[1..][..rest.consumed];
    assert ChunkTexts(trace[..r.consumed]) == ChunkTexts(trace[1..][..rest.consumed]);
  }

  lemma CumulativeChunkStep(trace: seq<Obs>, acc: string)
    requires |trace| > 0 && trace[0].Chunk?
    requires Cumulative(trace[1..], acc + trace[0].text, ConsumeLoop(trace[1..], acc + trace[0].text))
    ensures Cumulative(trace, acc, ConsumeLoop(trace, acc))
  {
    var s := trace[0].text;
    var r := ConsumeLoop(trace, acc);
    var rest := ConsumeLoop(trace[1..], acc + s);
    assert r.emitted == [acc + s] + rest.emitted && r.full == rest.full && r.consumed == rest.consumed + 1;
    var tail := ChunkTexts(trace[1..][..rest.consumed]);
    assert trace[..r.consumed] == [trace[0]] + trace[1..][..rest.consumed];
    var texts := [s] + tail;
    assert ChunkTexts(trace[..r.consumed]) == texts;
    assert Concat([s]) == s by { assert [s][..0] == []; }
    forall k | 0 <= k < |r.emitted| ensures r.emitted[k] == acc + Concat(texts[..k + 1]) {
      PrependChunk(acc, s, tail, k);
      if k > 0 {
        assert r.emitted[k] == rest.emitted[k - 1];
      }
    }
    PrependChunk(acc, s, tail, |tail|);
    assert texts[..|tail| + 1] == texts && tail[..|tail|] == tail;
  }

  /** Starting from `acc + s` and reading `tail[..k]` gives what starting from `acc` and reading `s` too gives. */
  lemma PrependChunk(acc: string, s: string, tail: seq<string>, k: nat)
    requires k <= |tail|
    ensures (acc + s) + Concat(tail[..k]) == acc + Concat(([s] + tail)[..k + 1])
  {
    ConcatAppend([s], tail[..k]);
    assert ([s] + tail)[..k + 1] == [s] + tail[..k];
    assert Concat([s]) == s by { assert [s][..0] == []; }
    assert (acc + s) + Concat(tail[..k]) == acc + (s + Concat(tail[..k]));
  }

  /**
   * Every yield extends the previous one; with the producer's non-empty chunks
   * it strictly extends it. The last yield is the final `full_response`.
   */
  lemma {:induction false} YieldsGrow(trace: seq<Obs>, acc: string)
    ensures var r := ConsumeLoop(trace, acc);
      && (forall k | 0 < k < |r.emitted| :: StartsWith(r.emitted[k], r.emitted[k - 1]))
      && (|r.emitted| > 0 ==> r.emitted[|r.emitted| - 1] == r.full)
      && (|r.emitted| == 0 ==> r.full == acc)
    ensures ProducerChunks(trace) ==> var r := ConsumeLoop(trace, acc);
      forall k | 0 <= k < |r.emitted| :: |r.emitted[k]| > |acc| + k
    ensures ProducerChunks(trace) ==> var r := ConsumeLoop(trace, acc);
      forall k | 0 < k < |r.emitted| :: |r.emitted[k]| > |r.emitted[k - 1]|
    decreases |trace|
  {
    if |trace| > 0 {
      assert ProducerChunks(trace) ==> ProducerChunks(trace[1..]) by {
        if ProducerChunks(trace) {
          forall i | 0 <= i < |trace[1..]| && trace[1..][i].Chunk? ensures trace[1..][i].text != "" {
            assert trace[1..][i] == trace[i + 1];
          }
        }
      }
      match trace[0]
      case Chunk(s) =>
        YieldsGrow(trace[1..], acc + s);
        var r := ConsumeLoop(trace, acc);
        var rest := ConsumeLoop(trace[1..], acc + s);
        assert r.emitted == [acc + s] + rest.emitted;
        forall k | 0 < k < |r.emitted| ensures StartsWith(r.emitted[k], r.emitted[k - 1]) {
          if k == 1 {
            PrefixOfGrowth(trace[1..], acc + s);
          }
        }
        if ProducerChunks(trace) && |rest.emitted| > 0 {
          assert |r.emitted[1]| > |acc + s|;
        }
      case ErrorFlagSet(e) =>
        if e == "" { YieldsGrow(trace[1..], acc); }
      case Timeout(done) =>
        if !done { YieldsGrow(trace[1..], acc); }
      case Sentinel =>
    }
  }

  /** Every string the loop emitted starts with the text it started from. */
  lemma {:induction false} PrefixOfGrowth(trace: seq<Obs>, acc: string)
    ensures var r := ConsumeLoop(trace, acc);
      StartsWith(r.full, acc) && forall k | 0 <= k < |r.emitted| :: StartsWith(r.emitted[k], acc)
    decreases |trace|
  {
    if |trace| > 0 {
      match trace[0]
      case Chunk(s) =>
        PrefixOfGrowth(trace[1..], acc + s);
        var r := ConsumeLoop(trace, acc);
        var rest := ConsumeLoop(trace[1..], acc + s);
        forall k | 0 <= k < |r.emitted| ensures StartsWith(r.emitted[k], acc) {
          if k > 0 {
            assert r.emitted[k] == rest.emitted[k - 1];
            assert r.emitted[k][..|acc|] == r.emitted[k][..|acc + s|][..|acc|];
          }
        }
        assert r.full[..|acc|] == r.full[..|acc + s|][..|acc|];
      case ErrorFlagSet(e) =>
        if e == "" { PrefixOfGrowth(trace[1..], acc); }
      case Timeout(done) =>
        if !done { PrefixOfGrowth(trace[1..], acc); }
      case Sentinel =>
    }
  }

  /** A timeout with the done flag set ends the loop even with chunks still queued behind it. */
  lemma TimeoutExitDoesNotDrain(s: string)
    ensures ConsumeLoop([Timeout(true), Chunk(s)], "") == LoopResult(Broke, "", [], 1)
  {
  }

  /** Chunks "He" and "llo" then the sentinel yield "He" and "Hello" and leave "Hello". */
  lemma TwoChunksExample()
    ensures ConsumeLoop([Chunk("He"), Chunk("llo"), Sentinel], "")
         == LoopResult(Broke, "Hello", ["He", "Hello"], 3)
  {
    assert [Chunk("He"), Chunk("llo"), Sentinel][1..] == [Chunk("llo"), Sentinel];
    assert [Chunk("llo"), Sentinel][1..] == [Sentinel];
    assert "He" + "llo" == "Hello" && "" + "He" == "He";
    assert ConsumeLoop([Sentinel], "Hello") == LoopResult(Broke, "Hello", [], 1);
    assert ConsumeLoop([Chunk("llo"), Sentinel], "He") == LoopResult(Broke, "Hello", ["Hello"], 2);
  }
}

=== FILE: text.dfy ===
/** String helpers with Python's meaning: `startswith`, `isspace`, `strip`, `"".join`. */
module Text {

  predicate StartsWith(s: string, prefix: string) {
    |prefix| <= |s| && s[..|prefix|] == prefix
  }

  /** `c.isspace()` for one character: the characters `str.strip()` removes by default. */
  predicate IsSpace(c: char) {
    || ('\t' <= c <= '\r')
    || ('\U{1C}' <= c <= ' ')
    || c == '\U{85}' || c == '\U{A0}' || c == '\U{1680}'
    || ('\U{2000}' <= c <= '\U{200A}')
    || c == '\U{2028}' || c == '\U{2029}' || c == '\U{202F}' || c == '\U{205F}' || c == '\U{3000}'
  }

  predicate AllSpace(s: string) {
    forall i | 0 <= i < |s| :: IsSpace(s[i])
  }

  /** `s.lstrip()`: the suffix of `s` left once its leading whitespace is dropped. */
  function TrimStart(s: string): (r: string)
    ensures |r| <= |s| && r == s[|s| - |r|..]
    ensures r == "" || !IsSpace(r[0])
  {
    if |s| > 0 && IsSpace(s[0]) then TrimStart(s[1..]) else s
  }

  /** `s.rstrip()`: the prefix of `s` left once its trailing whitespace is dropped. */
  function TrimEnd(s: string): (r: string)
    ensures |r| <= |s| && r == s[..|r|]
    ensures r == "" || !IsSpace(r[|r| - 1])
  {
    if |s| > 0 && IsSpace(s[|s| - 1]) then TrimEnd(s[..|s| - 1]) else s
  }

  /** `s.strip()`. It is empty exactly when every character of `s` is whitespace. */
  function Strip(s: string): (r: string)
    ensures r == "" || (!IsSpace(r[0]) && !IsSpace(r[|r| - 1]))
    ensures r == "" <==> AllSpace(s)
  {
    StripEmptyIffAllSpace(s);
    TrimEnd(TrimStart(s))
  }

  lemma StripEmptyIffAllSpace(s: string)
    ensures TrimEnd(TrimStart(s)) == "" <==> AllSpace(s)
  {
    var t := TrimStart(s);
    TrimStartEmptyIff(s);
    TrimEndEmptyIff(t);
    if t != "" {
      assert !IsSpace(t[0]);
    }
  }

  lemma {:induction false} TrimStartEmptyIff(s: string)
    ensures TrimStart(s) == "" <==> AllSpace(s)
    decreases |s|
  {
    if |s| > 0 {
      if IsSpace(s[0]) {
        TrimStartEmptyIff(s[1..]);
        AllSpaceCons(s);
      } else {
        assert TrimStart(s) == s;
      }
    }
  }

  lemma {:induction false} TrimEndEmptyIff(s: string)
    ensures TrimEnd(s) == "" <==> AllSpace(s)
    decreases |s|
  {
    if |s| > 0 {
      if IsSpace(s[|s| - 1]) {
        TrimEndEmptyIff(s[..|s| - 1]);
        AllSpaceSnoc(s);
      } else {
        assert TrimEnd(s) == s;
      }
    }
  }

  lemma AllSpaceCons(s: string)
    requires |s| > 0 && IsSpace(s[0])
    ensures AllSpace(s) <==> AllSpace(s[1..])
  {
    if AllSpace(s[1..]) {
      forall i | 1 <= i < |s| ensures IsSpace(s[i]) {
        assert s[i] == s[1..][i - 1];
      }
    }
  }

  lemma AllSpaceSnoc(s: string)
    requires |s| > 0 && IsSpace(s[|s| - 1])
    ensures AllSpace(s) <==> AllSpace(s[..|s| - 1])
  {
  }

  /** `"".join(parts)`, built left to right like the `+=` loops of the source. */
  function Concat(parts: seq<string>): string {
    if |parts| == 0 then "" else Concat(parts[..|parts| - 1]) + parts[|parts| - 1]
  }

  lemma {:induction false} ConcatAppend(a: seq<string>, b: seq<string>)
    ensures Concat(a + b) == Concat(a) + Concat(b)
    decreases |b|
  {
    if |b| == 0 {
      assert a + b == a;
    } else {
      var init := b[..|b| - 1];
      assert (a + b)[..|a + b| - 1] == a + init;
      assert (a + b)[|a + b| - 1] == b[|b| - 1];
      ConcatAppend(a, init);
      assert Concat(b) == Concat(init) + b[|b| - 1];
    }
  }
}

=== FILE: turn.dfy ===
/**
 * One chat turn: `BaseChat.get_response` together with `save_message`.
 *
 * The generator's observable behaviour is a sequence of events in the order
 * they happen: records handed to `save_message`, requests sent to the model
 * API, and strings yielded to the UI. Everything the turn cannot see is an
 * oracle input: a failure while building the SDK client or starting the
 * producer thread, the consumer's observations of the queue, the value of the
 * error flag once the loop is left, and the outcome of the non-streaming call.
 */
module Turn {
  import opened Wrappers
  import opened Values
  import opened Text
  import opened Messages
  import opened Stream
  import opened Fallback

  /** The fixed reply to an empty or whitespace-only message. */
  const PromptForInput: string := "Please enter a message."

  /** A `ChatMessage` row: its role and content (id and timestamp are assigned by the store). */
  datatype Record = Record(role: Role, content: string)

  /** The arguments of one `client.messages.create` call that the model tracks. */
  datatype Request = Request(model: string, system: Option<PyValue>, messages: seq<Message>, stream: bool)

  datatype Event =
    | Saved(record: Record)     // `await self.save_message(role, content)`
    | Called(request: Request)  // `client.messages.create(...)`
    | Yielded(text: string)     // `yield text`

  /** The state of a `BaseChat` after `__init__` that a turn reads. */
  datatype BaseChat = BaseChat(modelId: string, systemPrompt: PyValue)

  /** What the turn observes from the world outside it. */
  datatype World = World(
    clientError: Option<string>,    // `str(e)` of an exception from `get_client` or thread start
    trace: seq<Obs>,                // the consumer's observations of the queue
    flagAfterLoop: Option<string>,  // `streaming_error[0]` when the loop has been left
    fallback: Result<Reply, string>) // the non-streaming reply, or `str(e)` of its exception

  /** The events of a turn, and whether the generator ran to its end. */
  datatype Turn = Turn(events: seq<Event>, finished: bool)

  /** `system=self.system_prompt if self.system_prompt else None`. */
  function SystemParam(prompt: PyValue): Option<PyValue> {
    if Truthy(prompt) then Some(prompt) else None
  }

  /** Whether `if streaming_error[0]:` holds: an error was recorded with a non-empty message. */
  predicate FlagRaised(flag: Option<string>) {
    flag.Some? && flag.value != ""
  }

  /** Save an assistant message, then yield it. */
  function Report(text: string): seq<Event> {
    [Saved(Record(Assistant, text)), Yielded(text)]
  }

  function Emit(texts: seq<string>): (r: seq<Event>)
    ensures |r| == |texts| && forall i | 0 <= i < |texts| :: r[i] == Yielded(texts[i])
  {
    seq(|texts|, i requires 0 <= i < |texts| => Yielded(texts[i]))
  }

  /** What follows a `break` out of the polling loop (lines of the source after the loop). */
  function Finalise(request: Request, full: string, world: World): seq<Event> {
    var saved := if full != "" then [Saved(Record(Assistant, full))] else [];
    if full == "" && !FlagRaised(world.flagAfterLoop) then
      var retry := request.(stream := false);
      saved + [Called(retry)] +
        match world.fallback
        case Ok(reply) => Report(ReplyText(reply))
        case Err(e) => Report("Error: " + e)
    else
      saved
  }

  /** `get_response(message, history)`. */
  function GetResponse(chat: BaseChat, message: string, history: seq<PyValue>, world: World): Turn {
    if message == "" || Strip(message) == "" then
      Turn([Yielded(PromptForInput)], true)
    else
      match FormatMessages(message, history)
      case Err(e) => Turn(Report("Error: " + KeyErrorText(e)), true)
      case Ok(messages) =>
        var rest := Respond(chat, messages, world);
        Turn([Saved(Record(User, message))] + rest.events, rest.finished)
  }

  /** The part of `get_response` after the user message has been saved. */
  function Respond(chat: BaseChat, messages: seq<Message>, world: World): Turn {
    match world.clientError
    case Some(e) => Turn(Report("Error: " + e), true)
    case None =>
      var request := StreamRequest(chat, messages);
      var loop := Loop(world);
      Turn([Called(request)] + Emit(loop.emitted) + AfterLoop(request, loop, world), !loop.end.Suspended?)
  }

  /** What the turn does once the polling loop is left, by how it was left. */
  function AfterLoop(request: Request, loop: LoopResult, world: World): seq<Event> {
    match loop.end
    case Suspended => []
    case FlagExit(e) => Report("Streaming error: " + e)
    case Broke => Finalise(request, loop.full, world)
  }

  // ---------------------------------------------------------------------------
  // Projections of an event sequence.

  function Saves(events: seq<Event>): seq<Record> {
    if |events| == 0 then []
    else (if events[0].Saved? then [events[0].record] else []) + Saves(events[1..])
  }

  function Calls(events: seq<Event>): seq<Request> {
    if |events| == 0 then []
    else (if events[0].Called? then [events[0].request] else []) + Calls(events[1..])
  }

  function Outputs(events: seq<Event>): seq<string> {
    if |events| == 0 then []
    else (if events[0].Yielded? then [events[0].text] else []) + Outputs(events[1..])
  }

  lemma {:induction false} ProjectAppend(a: seq<Event>, b: seq<Event>)
    ensures Saves(a + b) == Saves(a) + Saves(b)
    ensures Calls(a + b) == Calls(a) + Calls(b)
    ensures Outputs(a + b) == Outputs(a) + Outputs(b)
    decreases |a|
  {
    if |a| > 0 {
      assert (a + b)[1..] == a[1..] + b;
      ProjectAppend(a[1..], b);
    } else {
      assert a + b == b;
    }
  }

  lemma {:induction false} ProjectEmit(texts: seq<string>)
    ensures Saves(Emit(texts)) == [] && Calls(Emit(texts)) == [] && Outputs(Emit(texts)) == texts
    decreases |texts|
  {
    if |texts| > 0 {
      assert Emit(texts)[1..] == Emit(texts[1..]);
      ProjectEmit(texts[1..]);
    }
  }

  lemma ProjectOne(e: Event)
    ensures Saves([e]) == (if e.Saved? then [e.record] else [])
    ensures Calls([e]) == (if e.Called? then [e.request] else [])
    ensures Outputs([e]) == (if e.Yielded? then [e.text] else [])
  {
    assert [e][1..] == [];
  }

  lemma ProjectReport(text: string)
    ensures Saves(Report(text)) == [Record(Assistant, text)]
    ensures Calls(Report(text)) == [] && Outputs(Report(text)) == [text]
  {
    ProjectOne(Saved(Record(Assistant, text)));
    ProjectOne(Yielded(text));
    assert Report(text) == [Saved(Record(Assistant, text))] + [Yielded(text)];
    ProjectAppend([Saved(Record(Assistant, text))], [Yielded(text)]);
  }

  // ---------------------------------------------------------------------------
  // How a turn ends, read off the oracles.

  /** The polling loop of a turn. */
  function Loop(world: World): LoopResult {
    ConsumeLoop(world.trace, "")
  }

  /** The fallback condition after the loop: nothing streamed and no error flag. */
  predicate FallbackRuns(world: World) {
    world.clientError.None? && Loop(world).end.Broke? && Loop(world).full == ""
      && !FlagRaised(world.flagAfterLoop)
  }

  /**
   * The loop took the sentinel with nothing streamed while the error flag was
   * set after its last check: neither the save nor the fallback condition holds.
   */
  predicate SilentEnd(world: World) {
    world.clientError.None? && Loop(world).end.Broke? && Loop(world).full == ""
      && FlagRaised(world.flagAfterLoop)
  }

  /** The streaming request of a turn. */
  function StreamRequest(chat: BaseChat, messages: seq<Message>): Request {
    Request(chat.modelId, SystemParam(chat.systemPrompt), messages, true)
  }

  /** The response string the fallback reports: the reply's text, or the error. */
  function FallbackText(fallback: Result<Reply, string>): string {
    match fallback
    case Ok(reply) => ReplyText(reply)
    case Err(e) => "Error: " + e
  }

  /** The records `Respond` hands to `save_message`, by how the turn ends. */
  function RespondSaves(world: World): seq<Record> {
    match world.clientError
    case Some(e) => [Record(Assistant, "Error: " + e)]
    case None =>
      var loop := Loop(world);
      match loop.end
      case Suspended => []
      case FlagExit(e) => [Record(Assistant, "Streaming error: " + e)]
      case Broke =>
        if loop.full != "" then [Record(Assistant, loop.full)]
        else if FallbackRuns(world) then [Record(Assistant, FallbackText(world.fallback))]
        else []
  }

  /** The strings `Respond` yields, by how the turn ends. */
  function RespondOutputs(world: World): seq<string> {
    match world.clientError
    case Some(e) => ["Error: " + e]
    case None =>
      var loop := Loop(world);
      match loop.end
      case Suspended => loop.emitted
      case FlagExit(e) => loop.emitted + ["Streaming error: " + e]
      case Broke => loop.emitted + (if FallbackRuns(world) then [FallbackText(world.fallback)] else [])
  }

  lemma RespondProjections(chat: BaseChat, messages: seq<Message>, world: World)
    ensures var t := Respond(chat, messages, world);
      && Saves(t.events) == RespondSaves(world)
      && Outputs(t.events) == RespondOutputs(world)
      && Calls(t.events) == (if world.clientError.Some? then []
                             else if FallbackRuns(world) then [StreamRequest(chat, messages), StreamRequest(chat, messages).(stream := false)]
                             else [StreamRequest(chat, messages)])
      && t.finished == !(world.clientError.None? && Loop(world).end.Suspended?)
  {
    match world.clientError
    case Some(e) =>
      ProjectReport("Error: " + e);
    case None =>
      var request := StreamRequest(chat, messages);
      var loop := Loop(world);
      var head := [Called(request)] + Emit(loop.emitted);
      var tail := AfterLoop(request, loop, world);
      assert Respond(chat, messages, world).events == head + tail;
      ProjectEmit(loop.emitted);
      ProjectAppend([Called(request)], Emit(loop.emitted));
      assert Saves([Called(request)]) == [] && Calls([Called(request)]) == [request] && Outputs([Called(request)]) == [];
      assert Saves(head) == [] && Calls(head) == [request] && Outputs(head) == loop.emitted;
      ProjectAppend(head, tail);
      AfterLoopProjections(request, world);
      assert Saves(head + tail) == Saves(tail);
      assert Outputs(head + tail) == loop.emitted + Outputs(tail);
      assert Calls(head + tail) == [request] + Calls(tail);
  }

  /** The projections of what follows the loop, read off the oracles. */
  lemma AfterLoopProjections(request: Request, world: World)
    requires world.clientError.None?
    ensures var tail := AfterLoop(request, Loop(world), world);
      && Saves(tail) == RespondSaves(world)
      && Loop(world).emitted + Outputs(tail) == RespondOutputs(world)
      && Calls(tail) == (if FallbackRuns(world) then [request.(stream := false)] else [])
  {
    var loop := Loop(world);
    match loop.end
    case Suspended =>
      assert AfterLoop(request, loop, world) == [];
      assert loop.emitted + [] == loop.emitted;
    case FlagExit(e) =>
      ProjectReport("Streaming error: " + e);
    case Broke =>
      FinaliseProjections(request, loop.full, world);
      if !FallbackRuns(world) {
        assert loop.emitted + [] == loop.emitted;
      }
  }

  lemma FinaliseProjections(request: Request, full: string, world: World)
    ensures Saves(Finalise(request, full, world))
         == (if full != "" then [Record(Assistant, full)]
             else if !FlagRaised(world.flagAfterLoop) then [Record(Assistant, FallbackText(world.fallback))]
             else [])
    ensures Outputs(Finalise(request, full, world))
         == (if full == "" && !FlagRaised(world.flagAfterLoop) then [FallbackText(world.fallback)] else [])
    ensures Calls(Finalise(request, full, world))
         == (if full == "" && !FlagRaised(world.flagAfterLoop) then [request.(stream := false)] else [])
  {
    var saved := if full != "" then [Saved(Record(Assistant, full))] else [];
    assert Saves(saved) == (if full != "" then [Record(Assistant, full)] else []);
    assert Calls(saved) == [] && Outputs(saved) == [];
    if full == "" && !FlagRaised(world.flagAfterLoop) {
      var retry := request.(stream := false);
      var text := FallbackText(world.fallback);
      assert Finalise(request, full, world) == saved + [Called(retry)] + Report(text);
      ProjectReport(text);
      ProjectAppend(saved + [Called(retry)], Report(text));
      ProjectAppend(saved, [Called(retry)]);
      assert Saves([Called(retry)]) == [] && Outputs([Called(retry)]) == [] && Calls([Called(retry)]) == [retry];
    }
  }

  /** An empty or whitespace-only message is answered by the guard. */
  lemma BlankTurn(chat: BaseChat, message: string, history: seq<PyValue>, world: World)
    requires AllSpace(message)
    ensures GetResponse(chat, message, history, world) == Turn([Yielded(PromptForInput)], true)
  {
    assert Strip(message) == "";
  }

  /** Past the guard, a history the formatter rejects is reported and ends the turn. */
  lemma FormatErrorTurn(chat: BaseChat, message: string, history: seq<PyValue>, world: World)
    requires !AllSpace(message) && !WellFormedHistory(history)
    ensures FormatMessages(message, history).Err?
    ensures GetResponse(chat, message, history, world)
         == Turn(Report("Error: " + KeyErrorText(FormatMessages(message, history).error)), true)
  {
    assert message != "" && Strip(message) != "";
  }

  /** Past the guard and the formatter, the user message is saved and `Respond` runs. */
  lemma ReadableTurn(chat: BaseChat, message: string, history: seq<PyValue>, world: World)
    requires !AllSpace(message) && WellFormedHistory(history)
    ensures var rest := Respond(chat, FormatMessages(message, history).value, world);
      GetResponse(chat, message, history, world) == Turn([Saved(Record(User, message))] + rest.events, rest.finished)
  {
    assert message != "" && Strip(message) != "";
  }

  /** The projections of a turn that ends at the guard or at the formatter. */
  lemma EarlyExitProjections(chat: BaseChat, message: string, history: seq<PyValue>, world: World)
    requires AllSpace(message) || !WellFormedHistory(history)
    ensures var t := GetResponse(chat, message, history, world);
      && t.finished && Calls(t.events) == []
      && (AllSpace(message) ==> Saves(t.events) == [] && Outputs(t.events) == [PromptForInput])
      && (!AllSpace(message) ==>
            var text := "Error: " + KeyErrorText(FormatMessages(message, history).error);
            Saves(t.events) == [Record(Assistant, text)] && Outputs(t.events) == [text])
  {
    if AllSpace(message) {
      BlankTurn(chat, message, history, world);
      ProjectOne(Yielded(PromptForInput));
    } else {
      FormatErrorTurn(chat, message, history, world);
      ProjectReport("Error: " + KeyErrorText(FormatMessages(message, history).error));
    }
  }

  /** Past the guard and the formatter, the projections of a turn are the user save followed by those of `Respond`. */
  lemma TurnProjections(chat: BaseChat, message: string, history: seq<PyValue>, world: World)
    requires !AllSpace(message) && WellFormedHistory(history)
    ensures var t := GetResponse(chat, message, history, world);
      var messages := FormatMessages(message, history).value;
      && Saves(t.events) == [Record(User, message)] + RespondSaves(world)
      && Outputs(t.events) == RespondOutputs(world)
      && Calls(t.events) == (if world.clientError.Some? then []
                             else if FallbackRuns(world) then [StreamRequest(chat, messages), StreamRequest(chat, messages).(stream := false)]
                             else [StreamRequest(chat, messages)])
      && t.finished == !(world.clientError.None? && Loop(world).end.Suspended?)
  {
    ReadableTurn(chat, message, history, world);
    var messages := FormatMessages(message, history).value;
    var user := [Saved(Record(User, message))];
    ProjectOne(Saved(Record(User, message)));
    RespondProjections(chat, messages, world);
    ProjectAppend(user, Respond(chat, messages, world).events);
  }

  // ---------------------------------------------------------------------------
  // Properties.

  /**
   * An empty or whitespace-only message yields exactly the prompt for input and
   * touches neither the store nor the model; any other message saves something.
   */
  lemma BlankInputOnlyPrompts(chat: BaseChat, message: string, history: seq<PyValue>, world: World)
    ensures AllSpace(message) ==> GetResponse(chat, message, history, world) == Turn([Yielded(PromptForInput)], true)
    ensures Saves(GetResponse(chat, message, history, world).events) == [] <==> AllSpace(message)
  {
    if AllSpace(message) || !WellFormedHistory(history) {
      EarlyExitProjections(chat, message, history, world);
    } else {
      TurnProjections(chat, message, history, world);
    }
  }

  /**
   * A history the formatter cannot read ends the turn before the user message
   * is saved or the model called: the only record and the only output are the
   * `KeyError` text of the first malformed entry.
   */
  lemma FormatErrorReportsBeforeSaving(chat: BaseChat, message: string, history: seq<PyValue>, world: World)
    requires !AllSpace(message) && !WellFormedHistory(history)
    ensures var t := GetResponse(chat, message, history, world);
      exists i | 0 <= i < |history| ::
        && Malformed(history[i])
        && WellFormedHistory(history[..i])
        && t == Turn([Saved(Record(Assistant, "Error: " + KeyErrorText(MissingKey(history[i])))),
                      Yielded("Error: " + KeyErrorText(MissingKey(history[i])))], true)
  {
    FormatErrorTurn(chat, message, history, world);
    FormatFailsAtFirstMalformed(message, history);
  }

  /**
   * With a readable history the user message is saved exactly once, as the
   * first event of the turn (so before any model call); every later record is
   * an assistant record.
   */
  lemma UserSavedOnceFirst(chat: BaseChat, message: string, history: seq<PyValue>, world: World)
    requires !AllSpace(message) && WellFormedHistory(history)
    ensures var t := GetResponse(chat, message, history, world);
      && |t.events| > 0 && t.events[0] == Saved(Record(User, message))
      && |Saves(t.events)| > 0 && Saves(t.events)[0] == Record(User, message)
      && forall j | 1 <= j < |Saves(t.events)| :: Saves(t.events)[j].role == Assistant
  {
    ReadableTurn(chat, message, history, world);
    TurnProjections(chat, message, history, world);
    RespondLastOutput(world);
    var saves := Saves(GetResponse(chat, message, history, world).events);
    var rs := RespondSaves(world);
    assert saves == [Record(User, message)] + rs;
    forall j | 1 <= j < |saves| ensures saves[j].role == Assistant {
      assert j == 1 && saves[j] == rs[0];
    }
  }

  /**
   * How many records a turn saves. A blank message saves none; an unreadable
   * history saves only the error; otherwise the user message plus exactly one
   * assistant record, except when the generator has not finished or the loop
   * took the sentinel with nothing streamed and the error flag set, which
   * saves no assistant record at all.
   */
  lemma RecordsPerTurn(chat: BaseChat, message: string, history: seq<PyValue>, world: World)
    ensures var t := GetResponse(chat, message, history, world);
      |Saves(t.events)| == (if AllSpace(message) then 0
                            else if !WellFormedHistory(history) then 1
                            else if !t.finished || SilentEnd(world) then 1
                            else 2)
  {
    if AllSpace(message) || !WellFormedHistory(history) {
      EarlyExitProjections(chat, message, history, world);
    } else {
      TurnProjections(chat, message, history, world);
      RespondSaveCount(world);
    }
  }

  /**
   * The model calls of a turn. Past the guard and the formatter, the streaming
   * request carries the formatted messages, the model id and the system prompt
   * (or `None` when it is falsy); the fallback runs if and only if the loop
   * broke with nothing streamed and no error flag, and it is a single
   * non-streaming call with the same arguments.
   */
  lemma ModelCallsPerTurn(chat: BaseChat, message: string, history: seq<PyValue>, world: World)
    ensures var t := GetResponse(chat, message, history, world);
      (AllSpace(message) || !WellFormedHistory(history)) ==> Calls(t.events) == []
    ensures var t := GetResponse(chat, message, history, world);
      !AllSpace(message) && WellFormedHistory(history) ==>
        var request := Request(chat.modelId, SystemParam(chat.systemPrompt), FormatMessages(message, history).value, true);
        Calls(t.events) == (if world.clientError.Some? then []
                            else if FallbackRuns(world) then [request, request.(stream := false)]
                            else [request])
  {
    if AllSpace(message) || !WellFormedHistory(history) {
      EarlyExitProjections(chat, message, history, world);
    } else {
      TurnProjections(chat, message, history, world);
    }
  }

  /**
   * An error flag seen at the top of the loop ends the turn: what was streamed
   * so far stays yielded, then exactly one `Streaming error: <e>` record is
   * saved and yielded, and no fallback call is made.
   */
  lemma StreamingErrorEndsTurn(chat: BaseChat, message: string, history: seq<PyValue>, world: World)
    requires !AllSpace(message) && WellFormedHistory(history)
    requires world.clientError.None? && Loop(world).end.FlagExit?
    ensures var t := GetResponse(chat, message, history, world);
      var text := "Streaming error: " + Loop(world).end.e;
      && Loop(world).end.e != ""
      && t.finished
      && Saves(t.events) == [Record(User, message), Record(Assistant, text)]
      && Outputs(t.events) == Loop(world).emitted + [text]
      && |Calls(t.events)| == 1 && Calls(t.events)[0].stream
  {
    var loop := Loop(world);
    var text := "Streaming error: " + loop.end.e;
    TurnProjections(chat, message, history, world);
    assert !FallbackRuns(world);
    assert RespondSaves(world) == [Record(Assistant, text)];
    assert RespondOutputs(world) == loop.emitted + [text];
  }

  /**
   * Whenever a turn's last record is an assistant record, its content is the
   * last string the UI was given: what is persisted is what was shown.
   */
  lemma SavedResponseIsLastOutput(chat: BaseChat, message: string, history: seq<PyValue>, world: World)
    ensures var t := GetResponse(chat, message, history, world);
      var saves := Saves(t.events);
      var outs := Outputs(t.events);
      |saves| > 0 && saves[|saves| - 1].role == Assistant ==>
        |outs| > 0 && outs[|outs| - 1] == saves[|saves| - 1].content
  {
    if AllSpace(message) || !WellFormedHistory(history) {
      EarlyExitProjections(chat, message, history, world);
    } else {
      TurnProjections(chat, message, history, world);
      RespondLastOutput(world);
      var rs := RespondSaves(world);
      var saves := [Record(User, message)] + rs;
      assert Saves(GetResponse(chat, message, history, world).events) == saves;
      assert Outputs(GetResponse(chat, message, history, world).events) == RespondOutputs(world);
      if |rs| > 0 {
        assert saves[|saves| - 1] == rs[0];
      }
    }
  }

  /** `Respond` saves one record, except when the loop is suspended or the turn ends silently. */
  lemma RespondSaveCount(world: World)
    ensures |RespondSaves(world)|
         == (if (world.clientError.None? && Loop(world).end.Suspended?) || SilentEnd(world) then 0 else 1)
  {
  }

  /** `Respond` saves at most one record, an assistant one, and it is the last string yielded. */
  lemma RespondLastOutput(world: World)
    ensures |RespondSaves(world)| <= 1
    ensures var rs := RespondSaves(world); var outs := RespondOutputs(world);
      |rs| == 1 ==> rs[0].role == Assistant && |outs| > 0 && outs[|outs| - 1] == rs[0].content
  {
    if world.clientError.None? {
      var loop := Loop(world);
      if loop.end.Broke? && loop.full != "" {
        YieldsGrow(world.trace, "");
        assert !FallbackRuns(world);
        assert RespondOutputs(world) == loop.emitted + [];
      }
    }
  }

  // ---------------------------------------------------------------------------
  // Persistence.

  /**
   * `save_message`: appends the record to the store, unless the store raises,
   * in which case the exception is swallowed and the store is left as it was.
   */
  function SaveMessage(store: seq<Record>, record: Record, raises: bool): seq<Record> {
    if raises then store else store + [record]
  }

  /** The store after the turn's saves, the `i`-th of which raises when `raises[i]` holds. */
  function Persist(store: seq<Record>, saves: seq<Record>, raises: seq<bool>): (r: seq<Record>)
    requires |raises| == |saves|
    decreases |saves|
  {
    if |saves| == 0 then store
    else Persist(SaveMessage(store, saves[0], raises[0]), saves[1..], raises[1..])
  }

  /** The saves that do not raise, in the order they were made. */
  function Surviving(saves: seq<Record>, raises: seq<bool>): seq<Record>
    requires |raises| == |saves|
    decreases |saves|
  {
    if |saves| == 0 then []
    else (if raises[0] then [] else [saves[0]]) + Surviving(saves[1..], raises[1..])
  }

  /**
   * Failed saves only lose their own record: the store keeps its old rows and
   * gains, in order, exactly the records whose saves did not raise.
   */
  lemma PersistAppendsOnly(store: seq<Record>, saves: seq<Record>, raises: seq<bool>)
    requires |raises| == |saves|
    ensures var r := Persist(store, saves, raises);
      |store| <= |r| <= |store| + |saves| && r[..|store|] == store
    ensures Persist(store, saves, raises) == store + Surviving(saves, raises)
    ensures (forall i | 0 <= i < |raises| :: !raises[i]) ==> Persist(store, saves, raises) == store + saves
  {
    PersistExact(store, saves, raises);
    SurvivingBounds(saves, raises);
    var r := Persist(store, saves, raises);
    assert r[..|store|] == store;
    if forall i | 0 <= i < |raises| :: !raises[i] {
      SurvivingAll(saves, raises);
    }
  }

  /** The store after the saves is the old store followed by the surviving records. */
  lemma {:induction false} PersistExact(store: seq<Record>, saves: seq<Record>, raises: seq<bool>)
    requires |raises| == |saves|
    ensures Persist(store, saves, raises) == store + Surviving(saves, raises)
    decreases |saves|
  {
    if |saves| > 0 {
      var first := if raises[0] then [] else [saves[0]];
      var next := SaveMessage(store, saves[0], raises[0]);
      assert next == store + first;
      PersistExact(next, saves[1..], raises[1..]);
      assert Surviving(saves, raises) == first + Surviving(saves[1..], raises[1..]);
      assert (store + first) + Surviving(saves[1..], raises[1..]) == store + (first + Surviving(saves[1..], raises[1..]));
    }
  }

  lemma {:induction false} SurvivingBounds(saves: seq<Record>, raises: seq<bool>)
    requires |raises| == |saves|
    ensures |Surviving(saves, raises)| <= |saves|
    decreases |saves|
  {
    if |saves| > 0 {
      SurvivingBounds(saves[1..], raises[1..]);
    }
  }

  /** With no save raising, every record survives. */
  lemma {:induction false} SurvivingAll(saves: seq<Record>, raises: seq<bool>)
    requires |raises| == |saves|
    requires forall i | 0 <= i < |raises| :: !raises[i]
    ensures Surviving(saves, raises) == saves
    decreases |saves|
  {
    if |saves| > 0 {
      assert !raises[0];
      forall i | 0 <= i < |raises[1..]| ensures !raises[1..][i] {
        assert raises[1..][i] == raises[i + 1];
      }
      SurvivingAll(saves[1..], raises[1..]);
      assert [saves[0]] + saves[1..] == saves;
    }
  }

  /**
   * The store invariant of a conversation: a completed turn on a readable
   * history, when no save raises and the turn did not end silently, adds
   * exactly two rows, the user's and the assistant's.
   */
  lemma CompletedTurnAddsTwoRows(chat: BaseChat, message: string, history: seq<PyValue>, world: World, store: seq<Record>)
    requires !AllSpace(message) && WellFormedHistory(history)
    requires GetResponse(chat, message, history, world).finished && !SilentEnd(world)
    ensures var saves := Saves(GetResponse(chat, message, history, world).events);
      var r := Persist(store, saves, seq(|saves|, _ => false));
      |r| == |store| + 2 && r[|store|] == Record(User, message) && r[|store| + 1].role == Assistant
  {
    var saves := Saves(GetResponse(chat, message, history, world).events);
    RecordsPerTurn(chat, message, history, world);
    UserSavedOnceFirst(chat, message, history, world);
    PersistAppendsOnly(store, saves, seq(|saves|, _ => false));
  }

  // ---------------------------------------------------------------------------
  // Example turns.

  /** Chunks "He" and "llo": the UI sees "He" then "Hello", and "Hello" is what is saved. */
  lemma TwoChunkTurn(chat: BaseChat, message: string, history: seq<PyValue>, fallback: Result<Reply, string>)
    requires !AllSpace(message) && WellFormedHistory(history)
    ensures var t := GetResponse(chat, message, history, World(None, [Chunk("He"), Chunk("llo"), Sentinel], None, fallback));
      && Outputs(t.events) == ["He", "Hello"]
      && Saves(t.events) == [Record(User, message), Record(Assistant, "Hello")]
      && |Calls(t.events)| == 1
  {
    var world := World(None, [Chunk("He"), Chunk("llo"), Sentinel], None, fallback);
    TwoChunksExample();
    assert RespondSaves(world) == [Record(Assistant, "Hello")];
    assert RespondOutputs(world) == ["He", "Hello"];
    TurnProjections(chat, message, history, world);
  }

  /** A stream with no chunks and no error makes one fallback call, whose text is saved and yielded. */
  lemma EmptyStreamFallsBack(chat: BaseChat, message: string, history: seq<PyValue>, reply: Reply)
    requires !AllSpace(message) && WellFormedHistory(history)
    ensures var t := GetResponse(chat, message, history, World(None, [Sentinel], None, Ok(reply)));
      && Outputs(t.events) == [ReplyText(reply)]
      && Saves(t.events) == [Record(User, message), Record(Assistant, ReplyText(reply))]
      && |Calls(t.events)| == 2 && !Calls(t.events)[1].stream
  {
    var world := World(None, [Sentinel], None, Ok(reply));
    assert Loop(world) == LoopResult(Broke, "", [], 1);
    assert FallbackRuns(world);
    assert RespondSaves(world) == [Record(Assistant, ReplyText(reply))];
    assert RespondOutputs(world) == [ReplyText(reply)];
    TurnProjections(chat, message, history, world);
  }

  /**
   * The producer fails after the consumer's last flag check, and the consumer
   * then takes the sentinel with nothing streamed: no assistant record is
   * saved and nothing is yielded.
   */
  lemma LateErrorOnEmptyStreamIsSilent(chat: BaseChat, message: string, history: seq<PyValue>, e: string, fallback: Result<Reply, string>)
    requires e != ""
    requires !AllSpace(message) && WellFormedHistory(history)
    ensures var t := GetResponse(chat, message, history, World(None, [Sentinel], Some(e), fallback));
      && t.finished
      && Outputs(t.events) == []
      && Saves(t.events) == [Record(User, message)]
      && |Calls(t.events)| == 1
  {
    var world := World(None, [Sentinel], Some(e), fallback);
    assert Loop(world) == LoopResult(Broke, "", [], 1);
    assert !FallbackRuns(world);
    assert RespondSaves(world) == [] && RespondOutputs(world) == [];
    TurnProjections(chat, message, history, world);
  }

  /** An exception whose message is empty is falsy for the flag checks, so the fallback still runs. */
  lemma EmptyErrorMessageStillFallsBack(chat: BaseChat, message: string, history: seq<PyValue>, fallback: Result<Reply, string>)
    requires !AllSpace(message) && WellFormedHistory(history)
    ensures var t := GetResponse(chat, message, history, World(None, [ErrorFlagSet(""), Sentinel], Some(""), fallback));
      |Calls(t.events)| == 2 && Saves(t.events) == [Record(User, message), Record(Assistant, FallbackText(fallback))]
  {
    var world := World(None, [ErrorFlagSet(""), Sentinel], Some(""), fallback);
    assert [ErrorFlagSet(""), Sentinel][1..] == [Sentinel];
    assert Loop(world) == LoopResult(Broke, "", [], 2);
    assert FallbackRuns(world);
    assert RespondSaves(world) == [Record(Assistant, FallbackText(world.fallback))];
    TurnProjections(chat, message, history, world);
  }
}

=== FILE: values.dfy ===
/**
 * The Python values that flow through the chat core: the dicts the web UI
 * passes as conversation history, and what `yaml.safe_load` returns for a
 * bot configuration or knowledge file.
 */
module Values {

  /** A Python value, as far as the core inspects it. Dict keys are strings. */
  datatype PyValue =
    | PNone
    | PStr(s: string)
    | PInt(n: int)
    | PBool(b: bool)
    | PList(items: seq<PyValue>)
    | PDict(m: map<string, PyValue>)

  /** Python truthiness (`if v:`). */
  predicate Truthy(v: PyValue) {
    match v
    case PNone => false
    case PStr(s) => s != ""
    case PInt(n) => n != 0
    case PBool(b) => b
    case PList(items) => |items| > 0
    case PDict(m) => |m| > 0
  }

  /** Whether `v` may be used as a dict key; lists and dicts raise `TypeError: unhashable type`. */
  predicate Hashable(v: PyValue) {
    !v.PList? && !v.PDict?
  }

  /** The empty dict `{}`. */
  const EmptyDict: PyValue := PDict(map[])

  /** The name Python reports for the type of `v` in an `AttributeError`. */
  function TypeName(v: PyValue): string {
    match v
    case PNone => "NoneType"
    case PStr(_) => "str"
    case PInt(_) => "int"
    case PBool(_) => "bool"
    case PList(_) => "list"
    case PDict(_) => "dict"
  }
}

=== FILE: wrappers.dfy ===
/** Failure-carrying wrappers shared by every module of the model. */
module Wrappers {

  /** A value that may be absent (Python's `None` where the source allows it). */
  datatype Option<+T> = None | Some(value: T)

  /** The outcome of a step that may raise: `Err` carries what the exception was. */
  datatype Result<+T, +E> = Ok(value: T) | Err(error: E)
}
